=== FILE: README.md ===
# omniwp-frontend — a Dafny model of its decision rules

omniwp-frontend is the Next.js front end of a small CRM. With it a business
keeps clients and orders, sends them templated WhatsApp messages, and pairs a
WhatsApp Web session by QR code. The front end holds no algorithms of note.
What it does hold is a set of small decision rules and state transitions
spread through the UI. This project models them as pure Dafny functions over
immutable records and proves what they promise, including several defects.

Modules follow the source files:

- `Js` (js.dfy) gives the JavaScript idioms the rules rely on:
  - `undefined` as `Option`;
  - truthiness of strings;
  - `a || b`;
  - `localStorage` as a `map<string, string>`.
- `Text` (text.dfy) gives `startsWith`, `includes`, a first-occurrence `replace`, `replace(/c/g, '')`, ASCII `toLowerCase`, `slice(-n)` and decimal formatting.
- `Lists` (lists.dfy) gives `filter` and `find`, with the counting lemmas the tables need.
- `Records` (records.dfy) holds the records of src/lib/types/index.ts.
- `Validations` (validations.dfy) holds the zod schemas as the list of issues each reports.
- `ApiErrors` (errors.dfy) is the error-message fallback.
- `AuthStore` (auth_store.dfy) is the zustand session store, including the `persist` middleware's 'auth-storage' key. Hydration follows `persist` from zustand 4.3 on: it sets the state and writes nothing.
- `RouteGates` (route_gates.dfy) covers `ProtectedRoute` and the home page.
- `ApiClient` (api_client.dfy) covers the axios interceptors.
- `WhatsAppApi` (whatsapp_api.dfy) covers token lookup, headers, query string and JWT decoding.
- `OrdersApi` (orders_api.dfy) covers the order requests and the update payload filter.
- `SocketService` (socket_service.dfy) covers the socket guard and the socket-to-window event translation.
- `PairingModal` (pairing_modal.dfy) is the QR modal's event reducer and render.
- `StatusCard` (status_card.dfy) holds the WhatsApp card's derived flags.
- `SendMessage` (send_message.dfy) is the send-message modal.
- `MessageHistory` (message_history.dfy) covers filters, search and grouping by client.
- `MessageGenerator` (message_generator.dfy) covers the template variable lookups and the WhatsApp link decision.
- `EditDialog` (editor.dfy) is the edit dialog both tables share.
- `SendModalHost` (send_modal_host.dfy) is the send-message modal as both tables host it.
- `ClientsTable` (clients_table.dfy) and `OrdersTable` (orders_table.dfy) are the two tables.
- `Dashboard` (dashboard.dfy) covers the overview and orders pages.

Browser and library behaviour enters as parameters or is left out:

- `confirm()` is a boolean.
- zod's e-mail check is a predicate `isEmail`.
- `JSON.stringify`/`JSON.parse` are the four conversions of `AuthStore.Json`.
- `atob` with percent-decoding, and `JSON.parse` in the JWT decoder, are partial functions.
- `new Date().toLocaleDateString('es-ES')` is a string `today`.

Several defects are proved as lemmas about the code as written:

- A 401 does not end the session: `ApiClient.SessionSurvives401` and `WhatsAppApi.AuthHeadersSurvive401`.
- An authenticated session without a user is reachable, and the two gates disagree on it: `AuthStore.NullUserSession` and `RouteGates.GatesDisagreeOnNullUser`.
- Socket errors always show the modal's default text: `PairingModal.SocketErrorShowsDefault`.
- The phone rule's `'+54'` alternative is dead: `Validations.PlusBranchDead`.
- The hooks' error-text defaults are unreachable: `ApiErrors.HookDefaultUnreachable`.
- Matching a client by name picks the wrong one: `MessageGenerator.SameNameShadowsSelection`.
- The status card throws when `whatsappWeb` is missing: `StatusCard.CardDescription`.
- A table's send button does not preselect its row: while the list is non-empty the modal stays mounted, its form takes its defaults when the modal mounts, when no row is chosen (every close resets the row to none), and later props never reach it: `ClientsTable.RowSendOpensBlankForm` and `OrdersTable.RowSendOpensBlankForm`.

Two places where the code differs from what one might expect are followed as written:

- A `connected` status event does not clear the QR code.
- No connect timeout exists.

## Model

| member | source | states |
|---|---|---|
| Records.ParseStatus | src/lib/types/index.ts:25 | a status name parses iff it is one of the four wire names, and the parsed status carries that name |
| Validations.LoginIssues | src/lib/validations/index.ts:4-7 | a login form is accepted iff the e-mail passes the e-mail check and the password has at least 6 characters |
| Validations.RegisterIssues | src/lib/validations/index.ts:9-13 | a registration is accepted iff name ≥ 2 characters, the e-mail passes, and password ≥ 6 characters |
| Validations.PhoneIssues | src/lib/validations/index.ts:18-24 | a phone is accepted iff it has ≥ 10 characters, all decimal digits, and starts with "54" |
| Validations.PlusPrefixRejected | src/lib/validations/index.ts:20 | any phone starting with '+' gets the digits-only issue and is rejected |
| Validations.PlusBranchDead | src/lib/validations/index.ts:21-24 | the `'+54'` alternative never changes a verdict: an all-digit phone never starts with "+54" |
| Validations.ClientEmailIssues | src/lib/validations/index.ts:25 | a client e-mail is accepted iff absent, empty, or passing the e-mail check |
| Validations.ClientIssues | src/lib/validations/index.ts:16-26 | a client is accepted iff name, phone and e-mail each pass their rule |
| Validations.ClientUpdateIssues | src/lib/validations/index.ts:28 | a client update is accepted iff every present field passes its create rule |
| Validations.ClientUpdateIsPartial | src/lib/validations/index.ts:28 | with all fields present the update schema reports exactly the create schema's issues; with none present it accepts |
| Validations.OrderIssues | src/lib/validations/index.ts:31-34 | an order is accepted iff it names a client and its description has ≥ 5 characters |
| Validations.OrderUpdateIssues | src/lib/validations/index.ts:36-39 | an order update is accepted iff a present description has ≥ 5 characters and a present status is a status name |
| Validations.MessageTemplateIssues | src/lib/validations/index.ts:42-49 | a template form is accepted iff its type is confirmacion, recordatorio or seguimiento, whatever the variables |
| ApiErrors.GetErrorMessage | src/lib/types/errors.ts:12-15 | the server's non-empty error text, else the error's non-empty message, else "Error desconocido"; never empty |
| ApiErrors.HookDefaultUnreachable | src/hooks/useClients.ts:24 | `getErrorMessage(e) \|\| default` is always `getErrorMessage(e)` |
| ApiErrors.EmptyServerTextIsAbsent | src/lib/types/errors.ts:14 | an empty server error text gives the same message as no server text |
| AuthStore.PartializeDropsOnlyInitialized | src/store/auth.ts:75-79 | the persisted slice ignores `isInitialized` and determines every other field |
| AuthStore.Partialize | src/store/auth.ts:75-79 | the persisted slice carries user, token and isAuthenticated as they are in the state |
| AuthStore.Commit | src/store/auth.ts:73-80 | after a `set`, 'auth-storage' holds the persisted slice of the new state and no other key changes |
| AuthStore.Login | src/store/auth.ts:24-31 | user, token and isAuthenticated are set, isInitialized kept; 'token' and 'user' written; invariant holds; other keys untouched |
| AuthStore.Logout | src/store/auth.ts:33-40 | user, token and isAuthenticated are cleared, isInitialized kept; 'token' and 'user' removed; invariant holds |
| AuthStore.SetUser | src/store/auth.ts:42-48 | only the user and the 'user' key change; the invariant is preserved |
| AuthStore.InitializeAuth | src/store/auth.ts:50-71 | always ends initialized; restores the stored session when both keys are non-empty and the user parses; clears state and both keys when it does not parse; otherwise changes only isInitialized; preserves the invariant |
| AuthStore.Reload | src/store/auth.ts:73-80 | a page load starts uninitialized, from the slice read back from 'auth-storage', or from the initial state when the key is missing or does not parse; hydration writes nothing to storage |
| AuthStore.ReloadRestoresMirror | src/store/auth.ts:73-80 | a store whose 'auth-storage' mirrors its state comes back from a page load with the same user, token and isAuthenticated, still mirrored |
| AuthStore.LoginSurvivesReload | src/store/auth.ts:24-71 | after login and a page load, `initializeAuth` restores exactly that user and token |
| AuthStore.NullUserSession | src/store/auth.ts:55-58 | a 'user' key holding JSON `null` yields an authenticated session with a token and no user |
| RouteGates.Protected | src/components/auth/ProtectedRoute.tsx:16-54 | initializes iff uninitialized; redirects to the login page iff initialized and not (authenticated with a user); renders children exactly then |
| RouteGates.Home | src/app/page.tsx:12-35 | initializes iff uninitialized; navigates only once initialized, to the dashboard iff authenticated; the text shows the phase |
| RouteGates.GatesSettleAfterInitialize | src/components/auth/ProtectedRoute.tsx:16-21 | after `initializeAuth` neither gate calls it again and the home page navigates |
| RouteGates.GatesDisagreeOnNullUser | src/app/page.tsx:21-27 | on a session without a user the home page goes to the dashboard while ProtectedRoute sends it to the login page |
| ApiClient.AttachToken | src/lib/api/client.ts:19-28 | Authorization becomes "Bearer " + token iff the 'token' key is non-empty, other headers kept; otherwise the config is unchanged |
| ApiClient.OnResponseError | src/lib/api/client.ts:35-48 | a 401 removes 'token' and 'user', touches no other key and goes to the login page; other errors change nothing; every error is rejected unchanged |
| ApiClient.SessionSurvives401 | src/lib/api/client.ts:38-44 | a 401 navigates to the login page and leaves 'auth-storage' intact, so the store rehydrated and initialised after it is authenticated with the rejected token and the next visit to the dashboard passes ProtectedRoute |
| WhatsAppApi.GetAuthHeaders | src/lib/api/whatsapp.ts:26-56 | the token from 'auth-storage' when truthy, else the 'token' key, else it throws; headers are exactly Authorization and Content-Type |
| WhatsAppApi.PublicHeaders | src/lib/api/whatsapp.ts:58-62 | public headers are exactly Content-Type, never Authorization |
| WhatsAppApi.AuthHeadersSurvive401 | src/lib/api/whatsapp.ts:28-33 | after a 401 from the axios client this client still sends the rejected token |
| WhatsAppApi.RequestHeaders | src/lib/api/whatsapp.ts:66-216 | authenticated endpoints send exactly what `getAuthHeaders` gives, throw included; public ones send only Content-Type and never throw |
| WhatsAppApi.RequestsSurvive401 | src/lib/api/whatsapp.ts:66-216 | after a 401 every authenticated endpoint still sends the rejected token; public ones are unaffected |
| WhatsAppApi.QueryParams | src/lib/api/whatsapp.ts:177-180 | only limit, offset and direction are sent, in that order, each carrying its filter's value |
| WhatsAppApi.QueryParamsPresence | src/lib/api/whatsapp.ts:178-180 | each parameter is present iff its filter is truthy, so a zero limit or offset is dropped |
| WhatsAppApi.LimitRoundTrip | src/lib/api/whatsapp.ts:178 | a positive limit is written in decimal and reads back as the same number |
| WhatsAppApi.Before | src/lib/api/whatsapp.ts:14 | the longest prefix without the separator, ending at the first separator when there is one |
| WhatsAppApi.SecondSegment | src/lib/api/whatsapp.ts:14 | undefined iff the token has no '.'; otherwise exactly the text between the first and second '.' |
| WhatsAppApi.UrlToStandard | src/lib/api/whatsapp.ts:15 | same length; '-' becomes '+', '_' becomes '/', every other character kept |
| WhatsAppApi.DecodeJwt | src/lib/api/whatsapp.ts:12-24 | null for a token without '.' or when a step fails; when the second segment exists and decodes, exactly the parse of the decoded text; a result is never invented |
| WhatsAppApi.DecodeBuiltToken | src/lib/api/whatsapp.ts:12-24 | a token `header.payload.signature`, header and payload without '.', decodes to the parse of its decoded payload |
| OrdersApi.UpdatePayload | src/lib/api/orders.ts:21-23 | the payload holds exactly the entries whose value is neither undefined nor "", values unchanged, no key added |
| OrdersApi.UpdatePayloadIdempotent | src/lib/api/orders.ts:21-23 | filtering a payload again changes nothing |
| OrdersApi.UpdatePayloadKeepsOrder | src/lib/api/orders.ts:21-23 | the payload's keys are the input's keys with some dropped, in the same order |
| OrdersApi.ValidUpdateDropsOnlyAbsent | src/lib/api/orders.ts:19-23 | for a schema-valid update only absent fields are dropped: the "" test never fires |
| OrdersApi.OrderPath | src/lib/api/orders.ts:27 | the path is "/orders/" followed by the id |
| OrdersApi.OrderPathInjective | src/lib/api/orders.ts:27 | the id can be read back from the path, so distinct orders get distinct paths |
| OrdersApi.Update | src/lib/api/orders.ts:19-29 | a PUT to the order's path whose body is the form's entries with the undefined and empty values dropped, so no empty value is sent |
| OrdersApi.ValidUpdateSendsPresentFields | src/lib/api/orders.ts:19-29 | a schema-valid update sends exactly its present fields, description before status |
| OrdersApi.ValidCreateLosesNothing | src/lib/api/orders.ts:13-16 | `create` posts the form unfiltered; for a schema-valid form that is exactly what `update`'s filter would keep, with both keys |
| OrdersApi.CollectionPathIsNoOrderPath | src/lib/api/orders.ts:7-16 | `getAll` and `create` share the collection path "/orders", which is not the path (line 27) of any single order |
| OrdersApi.Remove | src/lib/api/orders.ts:32-35 | a DELETE of the same path `update` uses, without body |
| SocketService.Connect | src/lib/socketService.ts:7-21 | a no-op on a connected socket; otherwise a new, not yet connected socket with the given token |
| SocketService.Disconnect | src/lib/socketService.ts:23-28 | the socket is dropped and `isConnected()` is false afterwards |
| SocketService.IsConnected | src/lib/socketService.ts:70-72 | false without a socket (the `|| false` fallback) and for a fresh service; true only for a connected socket |
| SocketService.Receive | src/lib/socketService.ts:30-68 | 'connect' emits the subscription; a QR becomes `whatsapp:qr` {qr}; a status is forwarded unchanged; an error becomes `whatsapp:error` {error}, with no `message` field; no socket means no listeners |
| SocketService.ConnectIdempotentOnceUp | src/lib/socketService.ts:8-10 | once connected, a second `connect` keeps the socket and token it was opened with |
| SocketService.ReconnectAfterDisconnect | src/lib/socketService.ts:7-28 | `disconnect` then `connect` opens a fresh socket with the new token |
| PairingModal.Open | src/components/whatsapp/ConnectWhatsAppModal.tsx:56-62 | opening clears the QR and the error, stops connecting, and registers the listeners |
| PairingModal.Cleanup | src/components/whatsapp/ConnectWhatsAppModal.tsx:104-108 | closing removes the listeners and keeps the state |
| PairingModal.OnQr | src/components/whatsapp/ConnectWhatsAppModal.tsx:65-70 | the QR is replaced by the event's, connecting starts, the error clears |
| PairingModal.OnStatus | src/components/whatsapp/ConnectWhatsAppModal.tsx:72-91 | connected: stop, clear the error, close and refetch; error: stop with the message or its default; connecting: start and clear; other statuses change nothing; the QR is never touched |
| PairingModal.OnError | src/components/whatsapp/ConnectWhatsAppModal.tsx:93-98 | connecting stops and the error is `detail.message` when non-empty, else "Error de conexión" |
| PairingModal.Dispatch | src/components/whatsapp/ConnectWhatsAppModal.tsx:100-102 | while listening, the QR, status and error events are handled by their own handlers; any other name, or a closed modal, changes nothing |
| PairingModal.HandleClose | src/components/whatsapp/ConnectWhatsAppModal.tsx:111-116 | all three fields reset and a close is requested, without refetch |
| PairingModal.ClosedModalIgnoresEvents | src/components/whatsapp/ConnectWhatsAppModal.tsx:104-108 | no sequence of events changes a closed modal |
| PairingModal.Render | src/components/whatsapp/ConnectWhatsAppModal.tsx:31-36 | props override state (`\|\|` for texts, defined-ness for the flag); the shown QR has no commas; the spinner, error, QR and close button (lines 132, 141, 155, 217-219) follow their conditions |
| PairingModal.SocketErrorShowsDefault | src/components/whatsapp/ConnectWhatsAppModal.tsx:96 | whatever error text the backend sends over the socket, the open modal shows "Error de conexión" |
| PairingModal.SocketQrShown | src/components/whatsapp/ConnectWhatsAppModal.tsx:65-67 | a socket QR reaches the open modal intact and is shown without commas |
| PairingModal.SocketConnectedCloses | src/components/whatsapp/ConnectWhatsAppModal.tsx:76-82 | a forwarded `connected` status closes the modal and refetches, keeping the QR |
| StatusCard.StatusBadge | src/components/whatsapp/WhatsAppStatusCard.tsx:52-65 | loading wins; connected, connecting and error get their badges; every other status is "Desconectado" |
| StatusCard.StatusIcon | src/components/whatsapp/WhatsAppStatusCard.tsx:37-50 | loading wins; any status outside the three known ones gets the offline icon |
| StatusCard.IconMatchesBadge | src/components/whatsapp/WhatsAppStatusCard.tsx:37-65 | the icon is always the one that goes with the badge |
| StatusCard.ServiceUnavailable | src/components/whatsapp/WhatsAppStatusCard.tsx:68 | holds iff the status or availability error message contains "503" |
| StatusCard.WhatsAppEnabled | src/components/whatsapp/WhatsAppStatusCard.tsx:69 | holds iff WhatsApp Web is enabled and the service is available |
| StatusCard.IsConnected | src/components/whatsapp/WhatsAppStatusCard.tsx:67 | connected iff the status data says "connected", loading or not, so never without data; once loaded, iff the badge reads "Conectado" |
| StatusCard.ShowsInfo | src/components/whatsapp/WhatsAppStatusCard.tsx:87 | the number and name show exactly when connected with info loaded, and then beside the disconnect button |
| StatusCard.ShowsStatusMessage | src/components/whatsapp/WhatsAppStatusCard.tsx:110 | the status message shows exactly when the status data carries a non-empty message |
| StatusCard.Button | src/components/whatsapp/WhatsAppStatusCard.tsx:116-148 | connect shown iff not connected, disabled iff pending, loading or not enabled; disconnect disabled iff pending; captions follow pending |
| StatusCard.CardDescription | src/components/whatsapp/WhatsAppStatusCard.tsx:151-161 | unavailable > not enabled > connected > prompt; a loaded availability without `whatsappWeb` throws unless unavailable |
| StatusCard.EnabledButtonMeansPrompt | src/components/whatsapp/WhatsAppStatusCard.tsx:117-160 | a usable connect button always comes with the connect prompt and never while unavailable |
| StatusCard.OnConnectOutcome | src/components/whatsapp/WhatsAppStatusCard.tsx:19-31 | the modal opens and the info is refetched only on success; failure changes nothing |
| SendMessage.Defaults | src/components/messages/SendMessageModal.tsx:60-67 | the props' ids or "", channel whatsapp, no template; such a form never passes the schema |
| SendMessage.Mount | src/components/messages/SendMessageModal.tsx:60-67 | on first render the form holds the defaults it will reset to, and there is no preview |
| SendMessage.PreviewFillsBothSlots | src/components/messages/SendMessageModal.tsx:95-97 | with one slot of each kind, in order, both are filled in place |
| SendMessage.PreviewKeepsRepeatedSlot | src/components/messages/SendMessageModal.tsx:95-97 | only the first "{clientName}" is filled; a second one stays |
| SendMessage.PreviewWithoutSlots | src/components/messages/SendMessageModal.tsx:95-97 | a template without slots is shown unchanged |
| SendMessage.SelectedClient | src/components/messages/SendMessageModal.tsx:74 | the found client is the first in the list with that id; none iff the list is absent or has no such id |
| SendMessage.SelectedOrder | src/components/messages/SendMessageModal.tsx:75 | the found order is the first in the list with that id; none iff the list is absent or has no such id |
| SendMessage.RefreshPreview | src/components/messages/SendMessageModal.tsx:91-101 | recomputed only when client, order, template key and templates are all present and the template is non-empty; otherwise the old preview stays |
| SendMessage.Submit | src/components/messages/SendMessageModal.tsx:103-124 | invalid iff the schema rejects; missing records iff client or order is not found; no-phone iff the client's phone is empty; a send copies the form's fields, and the name and description of the first client and order with the form's ids |
| SendMessage.SelectClient | src/components/messages/SendMessageModal.tsx:174-177 | choosing a client clears the order and changes nothing else |
| SendMessage.SelectOrder | src/components/messages/SendMessageModal.tsx:208 | choosing an order changes only the order |
| SendMessage.OrderOptions | src/components/messages/SendMessageModal.tsx:215-216 | the offered orders are exactly the orders of the list that belong to the chosen client; none without a list |
| SendMessage.SelectTemplate | src/components/messages/SendMessageModal.tsx:253 | choosing a template changes only the template |
| SendMessage.SelectorsPairOrderWithClient | src/components/messages/SendMessageModal.tsx:174-216 | through the selectors the order sent belongs to the client sent |
| SendMessage.SubmitEnabled | src/components/messages/SendMessageModal.tsx:329 | usable exactly when not sending with client, order and template chosen, so never for the blank form; every form the schema accepts is usable when nothing is being sent |
| SendMessage.Reset | src/components/messages/SendMessageModal.tsx:151-156 | close and a successful send return to the defaults with no preview |
| SendMessage.ResetOfMountIsMount | src/components/messages/SendMessageModal.tsx:60-67 | resetting a freshly opened modal changes nothing |
| SendMessage.HandlePreview | src/components/messages/SendMessageModal.tsx:136-142 | the preview is shown only when there is one; nothing else changes |
| MessageHistory.HandleFilterChange | src/components/messages/MessageHistory.tsx:42-47 | only the chosen filter changes, and "" is stored as undefined |
| MessageHistory.ClearFilters | src/components/messages/MessageHistory.tsx:49-52 | back to the prop client and order, no status or channel, empty search |
| MessageHistory.ChooseAllClears | src/components/messages/MessageHistory.tsx:42-47 | choosing "all" after any value is the same as choosing "all" directly |
| MessageHistory.Search | src/components/messages/MessageHistory.tsx:54-56 | keeps exactly the messages whose lower-cased text contains the lower-cased term |
| MessageHistory.EmptySearchKeepsAll | src/components/messages/MessageHistory.tsx:54-56 | an empty term keeps every message, in order |
| MessageHistory.SearchIgnoresTermCase | src/components/messages/MessageHistory.tsx:55 | a lower-cased term finds the same messages |
| MessageHistory.AddToGroups | src/components/messages/MessageHistory.tsx:59-66 | a message joins its client's group at the end, or opens a new last group; keys stay distinct |
| MessageHistory.GroupByClient | src/components/messages/MessageHistory.tsx:59-66 | no two groups share a client |
| MessageHistory.GroupByClientNonEmpty | src/components/messages/MessageHistory.tsx:59-66 | no group is empty, so every group has the first message the list reads |
| MessageHistory.GroupByClientKeyOrder | src/components/messages/MessageHistory.tsx:59-66 | groups come in the order in which their clients first appear in the list |
| MessageHistory.GroupByClientPartitions | src/components/messages/MessageHistory.tsx:59-66 | each group holds exactly its client's messages in order, and every message's client has a group |
| MessageHistory.GroupSizesSum | src/components/messages/MessageHistory.tsx:59-66 | group sizes add up to the number of messages |
| MessageHistory.ClientLabel | src/components/messages/MessageHistory.tsx:69-72 | "Cliente " followed by the last min(8, length) characters of the id |
| MessageHistory.CountLabel | src/components/messages/MessageHistory.tsx:203 | the count and "mensaje", pluralised iff the count is not 1 |
| MessageGenerator.GetClientName | src/components/messages/MessageGenerator.tsx:58-61 | the first client with that id's name, or "" |
| MessageGenerator.GetOrderInfo | src/components/messages/MessageGenerator.tsx:63-73 | empty date and status for an unknown order; else today, the status and the owner's name of the first order with that id |
| MessageGenerator.HandleClientChange | src/components/messages/MessageGenerator.tsx:75-77 | only the client name changes, to that client's name |
| MessageGenerator.HandleOrderChange | src/components/messages/MessageGenerator.tsx:79-84 | date, status and client name are all set from the order's info |
| MessageGenerator.ShowsOrderFields | src/components/messages/MessageGenerator.tsx:141 | the order fields are shown exactly for the template types the schema accepts other than the confirmation |
| MessageGenerator.OrderChangeNamesOwner | src/components/messages/MessageGenerator.tsx:63-84 | choosing an order names its owner just as choosing the owner does |
| MessageGenerator.CleanPhone | src/components/messages/MessageGenerator.tsx:254 | a phone without '+' is kept; otherwise the first '+' is removed and everything before and after it is kept |
| MessageGenerator.CleanPhoneKeepsLaterPlus | src/components/messages/MessageGenerator.tsx:254 | any '+' after the first survives the cleaning |
| MessageGenerator.SendDecision | src/components/messages/MessageGenerator.tsx:247-263 | nothing generated iff no text; with text, a chat opens iff the first client with that name has a phone, and then it is that client's chat |
| MessageGenerator.DistinctNamesSendToChosen | src/components/messages/MessageGenerator.tsx:247-263 | with distinct names, choosing a client and sending opens that client's chat exactly when it has a phone |
| MessageGenerator.SameNameShadowsSelection | src/components/messages/MessageGenerator.tsx:249-252 | after choosing the second of two same-named clients, the first (without phone) is found and nothing is sent |
| EditDialog.Edit | src/components/clients/ClientsTable.tsx:38-41 | editing a record opens the form on it |
| EditDialog.Close | src/components/clients/ClientsTable.tsx:75-78 | closing clears the record and the form |
| EditDialog.Submit | src/components/clients/ClientsTable.tsx:43-49 | with a record being edited: one update for its id with the data, then closed; with none: nothing |
| EditDialog.OneUpdatePerEdit | src/components/clients/ClientsTable.tsx:43-49 | one edit leads to at most one update call |
| EditDialog.CloseThenSubmitIsInert | src/components/clients/ClientsTable.tsx:75-78 | after closing, a submit calls nothing |
| SendModalHost.Mount | src/components/messages/SendMessageModal.tsx:60-67 | the modal's form is created once, when the modal mounts, from that render's props, with no row chosen and the dialog closed |
| SendModalHost.Open | src/components/clients/ClientsTable.tsx:64-67 | `handleSendMessage` remembers the row and opens the dialog without touching the modal's form |
| SendModalHost.Dismiss | src/components/messages/SendMessageModal.tsx:151-156 | closing resets the form to the defaults it was created with, clears the preview and forgets the row |
| SendModalHost.RunKeepsFirstDefaults | src/components/messages/SendMessageModal.tsx:60-67 | no sequence of row clicks and closes moves the form off the defaults it was mounted with |
| ClientsTable.HandleDelete | src/components/clients/ClientsTable.tsx:51-63 | blocked, quoting a positive count, iff some order names the client; otherwise deleted iff confirmed |
| ClientsTable.BlockedCountIsOwnedOrders | src/components/clients/ClientsTable.tsx:53-56 | the quoted count and the other clients' orders make up the whole list |
| ClientsTable.DeleteKeepsNoOrphans | src/components/clients/ClientsTable.tsx:51-62 | deleting a client the guard lets through leaves no order without its client |
| ClientsTable.MessageCount | src/components/clients/ClientsTable.tsx:70-73 | 0 when the data is not an array; 0 iff no message names the client; never more than the messages |
| ClientsTable.MessageCountAdds | src/components/clients/ClientsTable.tsx:72 | the count over a longer history is the sum of the counts over its parts |
| ClientsTable.HandleUpdate | src/components/clients/ClientsTable.tsx:43-49 | updates the edited client's id with the data, then clears the editing state; does nothing without one |
| ClientsTable.EditedRowIsUpdated | src/components/clients/ClientsTable.tsx:38-49 | editing a row and saving updates that row's client |
| ClientsTable.RowSendButton | src/components/clients/ClientsTable.tsx:156-158 | disabled iff the phone is empty, with the matching title |
| ClientsTable.ModalClientId | src/components/clients/ClientsTable.tsx:199-205 | the modal gets the chosen client's id, or none |
| ClientsTable.MountSendModal | src/components/clients/ClientsTable.tsx:199-206 | the modal mounts while no client is chosen (at the first non-empty render, or after a close reset the row), so its form starts with no client and no order |
| ClientsTable.RowSendOpensBlankForm | src/components/clients/ClientsTable.tsx:64-67 | after any history, a row's send button passes the client's id as a prop but opens a form with no client and no order, which the schema rejects and in which no client is found |
| ClientsTable.ModalPhoneCheckIgnoresRow | src/components/clients/ClientsTable.tsx:156-158 | an enabled send button does not protect the modal: picking a client without a phone still stops at the missing-phone toast |
| OrdersTable.ClientName | src/components/orders/OrdersTable.tsx:85-88 | the first client with that id's name, or "Cliente no encontrado" |
| OrdersTable.ClientNameAgreesWithGenerator | src/components/orders/OrdersTable.tsx:85-88 | the table and the generator agree on a known client and differ only in the fallback |
| OrdersTable.StatusLabel | src/components/orders/OrdersTable.tsx:31-36 | the badge text names its status: reading it back gives that status |
| OrdersTable.MessageCount | src/components/orders/OrdersTable.tsx:76-78 | 0 iff no message names the order; never more than the messages |
| OrdersTable.MessageCountAdds | src/components/orders/OrdersTable.tsx:76-78 | the count over a longer history is the sum of the counts over its parts |
| OrdersTable.MessageCountSingle | src/components/orders/OrdersTable.tsx:76-78 | one message counts 1 for its own order and 0 for any other, which with additivity fixes every count |
| OrdersTable.OrderCountWithinClientCount | src/components/orders/OrdersTable.tsx:76-78 | when an order's messages go to its owner, its count is at most the owner's count |
| OrdersTable.StatusLabelInjective | src/components/orders/OrdersTable.tsx:31-36 | distinct statuses get distinct labels |
| OrdersTable.HandleUpdate | src/components/orders/OrdersTable.tsx:57-63 | updates the edited order's id with the data, then clears the editing state; does nothing without one |
| OrdersTable.HandleDelete | src/components/orders/OrdersTable.tsx:65-69 | deletes that id iff confirmed |
| OrdersTable.DeleteIgnoresMessages | src/components/orders/OrdersTable.tsx:65-69 | an order with messages is still deleted once confirmed |
| OrdersTable.ModalProps | src/components/orders/OrdersTable.tsx:208-216 | the modal gets the chosen order's client id and id, or nothing |
| OrdersTable.MountSendModal | src/components/orders/OrdersTable.tsx:208-216 | the modal mounts while no order is chosen (at the first non-empty render, or after a close reset the row), so its form starts with no client and no order |
| OrdersTable.RowSendOpensBlankForm | src/components/orders/OrdersTable.tsx:71-74 | after any history, a row's send button passes the order's ids as props but opens a form with no client and no order, which the schema rejects and in which no order is found |
| Dashboard.CountStatus | src/app/dashboard/page.tsx:14-16 | at most the number of orders; 0 iff no order has that status |
| Dashboard.StatusCountsPartition | src/app/dashboard/page.tsx:14-16 | the four status counts add up to the number of orders |
| Dashboard.DashboardPage | src/app/dashboard/page.tsx:10-53 | skeleton iff either query loads; otherwise total clients and the pending, in-progress and completed counts |
| Dashboard.ShownCountsOmitCancelled | src/app/dashboard/page.tsx:14-16 | the three shown counts sum to the number of orders less the cancelled ones |
| Dashboard.HandleCreate | src/app/dashboard/orders/page.tsx:32-37 | creates the form's order and closes the form iff the data has a clientId key; otherwise nothing |
| Dashboard.HasClientIdKey | src/app/dashboard/orders/page.tsx:33 | holds iff "clientId" is one of the keys of the submitted object |
| Dashboard.HandleUpdate | src/app/dashboard/orders/page.tsx:39-41 | the id and data go unchanged to `ordersApi.update`: a PUT to that order's path with the filtered data, which for a schema-valid form is exactly its present fields |
| Dashboard.OrdersPage | src/app/dashboard/orders/page.tsx:47-88 | loading iff either query loads; "Nuevo Pedido" disabled and the warning shown iff there are no clients |
| Dashboard.PagesAgreeOnCounts | src/app/dashboard/orders/page.tsx:68-70 | the orders page shows the same three counts as the overview |

## Left out

- Server-side rendering: the `typeof window === 'undefined'` branches of src/store/auth.ts and src/lib/api/client.ts are not modelled; the model is the browser.
- The network: axios, `fetch`, response decoding and the socket.io transport. A request is a description (`OrdersApi.Request`, `ApiClient.RequestConfig`); the socket is a token and a connected flag.
- Successful responses pass through the axios interceptor unchanged; that identity is not given its own member.
- Foreign functions: zod's e-mail pattern (`isEmail`), `JSON.parse`/`JSON.stringify` (`AuthStore.Json`), `atob` with percent-decoding and the JWT payload parse (`DecodeJwt`'s parameters), and `encodeURIComponent` in the WhatsApp link.
- Browser APIs and effects: toasts, `console`, the clipboard, `window.open`, `window.location` (a navigation target instead), `setTimeout` (the delayed refetch is a flag), and `confirm` (a boolean input).
- Clock and locale: `new Date().toLocaleDateString('es-ES')` is the `today` parameter; dates in the history are not modelled. `toLowerCase` is ASCII only.
- `String.replace` replacement patterns (`$&`, `$1`, …): names and descriptions are taken literally.
- `Object.entries` lists integer-like keys first; `MessageHistory.GroupByClient` keeps insertion order for every key, which differs for client ids that are canonical array indices.
- `MessageHistory.GroupByClient`: the grouping accumulator in MessageHistory.tsx:59-66 is a plain object, so a client id that names an `Object.prototype` member ("constructor", "toString", "hasOwnProperty", "__proto__") finds an inherited value, skips the `= []` initialisation and makes `push` throw a TypeError; the model groups such messages like any other.
- `WhatsAppApi.QueryParams`: limits and offsets are taken as integers; a JavaScript `number` can also be a fraction (sent as "2.5"), NaN (falsy, so dropped), Infinity (sent as "Infinity") or large enough to print in exponent form ("1e+21"), which the model does not represent.
- `SendModalHost.Run`: the tables return before rendering the modal while their list is empty (ClientsTable.tsx:80-96, OrdersTable.tsx:90-106), which unmounts it and remounts it with a fresh form when rows return; `Action` has no such step. Since every close resets the chosen row, a remount sees no chosen row unless the list empties while the dialog is open.
- `JSON.parse` of 'auth-storage' yielding a non-object such as `null` is folded into `readPersisted` returning a slice with no token.
- SocketService.Connect: a `connect` while a previous socket exists but is not yet connected replaces it without closing it; the leaked socket and its listeners are not modelled.
- The socket's `whatsapp_error` listener reads `data.error.message` and would throw on a payload without `error`; the model takes the message as given.
- The hooks `useMessageHistory` and `useTemplates`, and the `sendMessage`/`isSending` results of `useMessages`, are imported by ClientsTable.tsx, OrdersTable.tsx, MessageHistory.tsx and SendMessageModal.tsx, but src/hooks/useMessages.ts defines only `useMessages` returning `generateMessage`, `generatedText`, `isGenerating` and `error`. The model takes what those hooks would supply as inputs: the message list (an absent `data` defaulting to the empty array), the template map, and a send call that succeeds or fails.
- AuthStore.Reload: assumes zustand 4.3 or later, where hydration writes nothing to storage; older `persist` versions wrote the slice back on load, and the files modelled do not pin the version.
- MessageGenerator.tsx calls `toast` without importing it, so each outcome of the WhatsApp button would end in a ReferenceError (for `OpenChat` after `window.open`). `MessageGenerator.SendAction` names the outcome the code selects; the throw is not modelled.
- react-query hooks (caching, invalidation, retries) in src/hooks, react-hook-form wiring in ClientForm and OrderForm, the debug panel, the static pages, layout, header, JSX and styling.
- The table views' empty-list cards and the short `id.slice(0, 8)` labels are presentation only.
- Behaviour the code does not have is not invented: connect timeouts with distinct messages, a stale flag on the status, rejection of concurrent connects.

=== FILE: api_client.dfy ===
/** The shared axios instance of src/lib/api/client.ts: a request interceptor
    that attaches the bearer token from the 'token' key, and a response
    interceptor that tears the session down on a 401. */
module ApiClient {
  import opened Js
  import AuthStore
  import RouteGates

  type Headers = map<string, string>

  /** The parts of an axios request config the interceptor can touch. */
  datatype RequestConfig = RequestConfig(verb: string, url: string, headers: Headers, body: Option<string>)

  /** The request interceptor. */
  function AttachToken(storage: Storage, config: RequestConfig): (r: RequestConfig)
    ensures r.verb == config.verb && r.url == config.url && r.body == config.body
    ensures Truthy(GetItem(storage, AuthStore.TokenKey)) ==>
      && "Authorization" in r.headers
      && r.headers["Authorization"] == "Bearer " + storage[AuthStore.TokenKey]
      && r.headers - {"Authorization"} == config.headers - {"Authorization"}
    ensures !Truthy(GetItem(storage, AuthStore.TokenKey)) ==> r == config
  {
    var token := GetItem(storage, AuthStore.TokenKey);
    if Truthy(token) then config.(headers := config.headers["Authorization" := "Bearer " + token.value])
    else config
  }

  /** A rejected request: `error.response?.status` and whatever else it carries. */
  datatype HttpError = HttpError(status: Option<int>, message: string)

  /** What the response interceptor does with an error: the storage it
      leaves, where it sends the window, and the error it rejects with. */
  datatype ErrorOutcome = ErrorOutcome(storage: Storage, navigate: Option<string>, rejected: HttpError)

  /** The response interceptor's error branch. A 401 removes 'token' and
      'user' and sends the window to the login page; nothing else is touched,
      and every error is rejected again unchanged. */
  function OnResponseError(storage: Storage, e: HttpError): (r: ErrorOutcome)
    ensures r.rejected == e
    ensures e.status == Some(401) ==>
      && AuthStore.TokenKey !in r.storage && AuthStore.UserKey !in r.storage
      && SameOutside(storage, r.storage, {AuthStore.TokenKey, AuthStore.UserKey})
      && r.navigate == Some(RouteGates.LoginPath)
    ensures e.status != Some(401) ==> r.storage == storage && r.navigate.None?
  {
    if e.status == Some(401) then
      ErrorOutcome(storage - {AuthStore.TokenKey, AuthStore.UserKey}, Some(RouteGates.LoginPath), e)
    else
      ErrorOutcome(storage, None, e)
  }

  /** A 401 leaves 'auth-storage' in place, so it does not end the session:
      the handler only sends the browser to the login page, which
      `ProtectedRoute` does not wrap. A store rehydrated afterwards from
      'auth-storage' and initialised by `initializeAuth` (which finds no
      'token' key and keeps the slice) is still authenticated and still
      holds the rejected token, so the next visit to the dashboard (the
      home page's redirect, for one) passes `ProtectedRoute`. */
  lemma SessionSurvives401(json: AuthStore.Json, s: AuthStore.Store, e: HttpError)
    requires AuthStore.Mirrors(json, s)
    requires s.state.isAuthenticated && s.state.user.Some?
    requires json.readPersisted(json.showPersisted(AuthStore.Partialize(s.state))) == Some(AuthStore.Partialize(s.state))
    requires e.status == Some(401)
    ensures
      var out := OnResponseError(s.storage, e);
      var after := AuthStore.InitializeAuth(json, AuthStore.Reload(json, out.storage));
      && out.navigate == Some(RouteGates.LoginPath)
      && RouteGates.Protected(after.state).screen == RouteGates.Children
      && after.state.token == s.state.token
  {
    var out := OnResponseError(s.storage, e);
    assert AuthStore.PersistKey in out.storage;
    assert out.storage[AuthStore.PersistKey] == s.storage[AuthStore.PersistKey];
  }
}

=== FILE: auth_store.dfy ===
/** The session store of src/store/auth.ts: a zustand store wrapped in the
    `persist` middleware, plus the store's own writes of the 'token' and
    'user' keys "for compatibility".

    Every action is a transition over (state, localStorage). The `persist`
    middleware is part of the transition: after every `set` it writes the
    `partialize`d slice under 'auth-storage', and on page load it merges that
    slice back into the initial state without writing anything (the store
    has no migration). JSON text is outside the model: the
    store sees it only through the four conversions of `Json`. */
module AuthStore {
  import opened Js
  import opened Records

  const TokenKey := "token"
  const UserKey := "user"
  const PersistKey := "auth-storage"

  datatype AuthState = AuthState(user: Option<User>, token: Option<string>, isAuthenticated: bool, isInitialized: bool)

  /** The slice `partialize` selects for persistence. */
  datatype Persisted = Persisted(user: Option<User>, token: Option<string>, isAuthenticated: bool)

  /** The JSON conversions the store depends on.
      `readUser` is `JSON.parse` of the 'user' key: `None` when it throws,
      `Some(None)` when the text is the JSON literal `null`.
      `readPersisted` is `JSON.parse` of 'auth-storage' followed by reading
      its `state`: `None` when it throws. */
  datatype Json = Json(
    showUser: User -> string,
    readUser: string -> Option<Option<User>>,
    showPersisted: Persisted -> string,
    readPersisted: string -> Option<Persisted>)

  /** The state the store is created with (src/store/auth.ts:19-22). */
  const Initial := AuthState(None, None, false, false)

  /** `partialize`: everything but `isInitialized`. */
  function Partialize(s: AuthState): (p: Persisted)
    ensures p.user == s.user && p.token == s.token && p.isAuthenticated == s.isAuthenticated
  {
    Persisted(s.user, s.token, s.isAuthenticated)
  }

  /** The persisted slice never depends on `isInitialized`, and determines
      every other field of the state. */
  lemma PartializeDropsOnlyInitialized(s: AuthState, t: AuthState)
    ensures Partialize(s) == Partialize(s.(isInitialized := !s.isInitialized))
    ensures Partialize(s) == Partialize(t) <==> s.(isInitialized := t.isInitialized) == t
  {
  }

  datatype Store = Store(state: AuthState, storage: Storage)

  /** 'auth-storage' holds the persisted slice of the current state; a
      missing key stands for the slice of the initial state, which is what
      a page load restores from it. */
  predicate Mirrors(json: Json, s: Store) {
    if PersistKey in s.storage then s.storage[PersistKey] == json.showPersisted(Partialize(s.state))
    else Partialize(s.state) == Partialize(Initial)
  }

  /** The store's invariant: an authenticated session has a token, and
      'auth-storage' mirrors the state. */
  predicate Invariant(json: Json, s: Store) {
    (s.state.isAuthenticated ==> s.state.token.Some?) && Mirrors(json, s)
  }

  /** zustand's `set` through `persist`: replace the state, then rewrite
      'auth-storage'. */
  function Commit(json: Json, state: AuthState, storage: Storage): (r: Store)
    ensures r.state == state && Mirrors(json, r)
    ensures PersistKey in r.storage && r.storage[PersistKey] == json.showPersisted(Partialize(state))
    ensures SameOutside(storage, r.storage, {PersistKey})
  {
    Store(state, storage[PersistKey := json.showPersisted(Partialize(state))])
  }

  /** `login(user, token)`. */
  function Login(json: Json, s: Store, u: User, t: string): (r: Store)
    ensures r.state == AuthState(Some(u), Some(t), true, s.state.isInitialized)
    ensures TokenKey in r.storage && r.storage[TokenKey] == t
    ensures UserKey in r.storage && r.storage[UserKey] == json.showUser(u)
    ensures Invariant(json, r)
    ensures SameOutside(s.storage, r.storage, {TokenKey, UserKey, PersistKey})
  {
    var c := Commit(json, s.state.(user := Some(u), token := Some(t), isAuthenticated := true), s.storage);
    c.(storage := c.storage[TokenKey := t][UserKey := json.showUser(u)])
  }

  /** `logout()`. */
  function Logout(json: Json, s: Store): (r: Store)
    ensures r.state == AuthState(None, None, false, s.state.isInitialized)
    ensures TokenKey !in r.storage && UserKey !in r.storage
    ensures Invariant(json, r)
    ensures SameOutside(s.storage, r.storage, {TokenKey, UserKey, PersistKey})
  {
    var c := Commit(json, s.state.(user := None, token := None, isAuthenticated := false), s.storage);
    c.(storage := c.storage - {TokenKey, UserKey})
  }

  /** `setUser(user)`: only the user changes. */
  function SetUser(json: Json, s: Store, u: User): (r: Store)
    ensures r.state == s.state.(user := Some(u))
    ensures UserKey in r.storage && r.storage[UserKey] == json.showUser(u)
    ensures Mirrors(json, r)
    ensures Invariant(json, s) ==> Invariant(json, r)
    ensures SameOutside(s.storage, r.storage, {UserKey, PersistKey})
  {
    var c := Commit(json, s.state.(user := Some(u)), s.storage);
    c.(storage := c.storage[UserKey := json.showUser(u)])
  }

  /** Both compatibility keys hold non-empty text (`token && userStr`). */
  predicate HasStoredSession(storage: Storage) {
    Truthy(GetItem(storage, TokenKey)) && Truthy(GetItem(storage, UserKey))
  }

  /** `initializeAuth()`: restore the session from the compatibility keys. */
  function InitializeAuth(json: Json, s: Store): (r: Store)
    ensures r.state.isInitialized
    ensures Mirrors(json, r)
    ensures !HasStoredSession(s.storage) ==>
      r.state == s.state.(isInitialized := true) && SameOutside(s.storage, r.storage, {PersistKey})
    ensures HasStoredSession(s.storage) && json.readUser(s.storage[UserKey]).Some? ==>
      && r.state == AuthState(json.readUser(s.storage[UserKey]).value, Some(s.storage[TokenKey]), true, true)
      && SameOutside(s.storage, r.storage, {PersistKey})
    ensures HasStoredSession(s.storage) && json.readUser(s.storage[UserKey]).None? ==>
      && r.state == AuthState(None, None, false, true)
      && TokenKey !in r.storage && UserKey !in r.storage
      && SameOutside(s.storage, r.storage, {TokenKey, UserKey, PersistKey})
    ensures Invariant(json, s) ==> Invariant(json, r)
  {
    if HasStoredSession(s.storage) then
      var token := s.storage[TokenKey];
      match json.readUser(s.storage[UserKey])
      case Some(user) => Commit(json, AuthState(user, Some(token), true, true), s.storage)
      case None =>
        var c := Commit(json, AuthState(None, None, false, true), s.storage);
        c.(storage := c.storage - {TokenKey, UserKey})
    else
      Commit(json, s.state.(isInitialized := true), s.storage)
  }

  /** The store as a fresh page load finds it: the initial state with the
      slice from 'auth-storage' merged in, or the initial state when the key
      is missing or its text does not parse. Hydration sets the state
      directly, so nothing is written to storage. */
  function Reload(json: Json, storage: Storage): (r: Store)
    ensures !r.state.isInitialized
    ensures r.storage == storage
    ensures PersistKey !in storage ==> r.state == Initial && Mirrors(json, r)
    ensures PersistKey in storage && json.readPersisted(storage[PersistKey]).Some? ==>
      Partialize(r.state) == json.readPersisted(storage[PersistKey]).value
    ensures PersistKey in storage && json.readPersisted(storage[PersistKey]).None? ==>
      r.state == Initial
  {
    if PersistKey in storage then
      match json.readPersisted(storage[PersistKey])
      case Some(p) => Store(AuthState(p.user, p.token, p.isAuthenticated, false), storage)
      case None => Store(Initial, storage)
    else
      Store(Initial, storage)
  }

  /** A page load restores the slice a mirroring store left behind, provided
      the slice's JSON reads back as itself: the reloaded store mirrors its
      storage again and differs from the old one only in `isInitialized`. */
  lemma ReloadRestoresMirror(json: Json, s: Store)
    requires Mirrors(json, s)
    requires json.readPersisted(json.showPersisted(Partialize(s.state))) == Some(Partialize(s.state))
    ensures Mirrors(json, Reload(json, s.storage))
    ensures Reload(json, s.storage).state == s.state.(isInitialized := false)
  {
    if PersistKey !in s.storage {
      assert Partialize(s.state) == Partialize(Initial);
      PartializeDropsOnlyInitialized(s.state, Initial);
    }
  }

  /** A session written by `login` survives a page load: `initializeAuth`
      restores exactly that user and token, provided the token is non-empty
      and the user's JSON reads back as the same user. */
  lemma LoginSurvivesReload(json: Json, s: Store, u: User, t: string)
    requires t != ""
    requires json.showUser(u) != ""
    requires json.readUser(json.showUser(u)) == Some(Some(u))
    ensures InitializeAuth(json, Reload(json, Login(json, s, u, t).storage)).state
         == AuthState(Some(u), Some(t), true, true)
  {
  }

  /** The store's invariant `isAuthenticated ==> token != null` does not extend
      to the user: a 'user' key holding the JSON literal `null` yields an
      authenticated session without a user. */
  lemma NullUserSession(json: Json, s: Store)
    requires HasStoredSession(s.storage)
    requires json.readUser(s.storage[UserKey]) == Some(None)
    ensures InitializeAuth(json, s).state.isAuthenticated
    ensures InitializeAuth(json, s).state.user.None?
    ensures InitializeAuth(json, s).state.token.Some?
  {
  }
}

=== FILE: clients_table.dfy ===
/** `ClientsTable` (src/components/clients/ClientsTable.tsx): the delete
    guard, the per-client message count, the edit dialog and the send
    button. `confirm()` is the `confirmed` parameter; toasts are not
    modelled beyond the count they quote. */
module ClientsTable {
  import opened Js
  import opened Records
  import Lists
  import EditDialog
  import SendMessage
  import SendModalHost
  import Validations

  /** The orders of one client. */
  function OwnedBy(id: string): Order -> bool {
    (o: Order) => o.clientId == id
  }

  /** What a click on the delete button leads to. */
  datatype DeleteOutcome =
    | Blocked(orderCount: nat)  // toast quoting how many orders the client has
    | Deleted                   // onDelete(id)
    | Cancelled                 // the confirmation was declined

  /** `handleDelete(id)`. */
  function HandleDelete(orders: seq<Order>, id: string, confirmed: bool): (r: DeleteOutcome)
    ensures r.Blocked? <==> exists j :: 0 <= j < |orders| && orders[j].clientId == id
    ensures r.Blocked? ==> 0 < r.orderCount <= |orders|
    ensures r.Deleted? <==> confirmed && forall j :: 0 <= j < |orders| ==> orders[j].clientId != id
    ensures r.Cancelled? <==> !confirmed && forall j :: 0 <= j < |orders| ==> orders[j].clientId != id
  {
    var owned := Lists.Filter(orders, OwnedBy(id));
    Lists.FilterEmpty(orders, OwnedBy(id));
    if |owned| > 0 then Blocked(|owned|)
    else if confirmed then Deleted
    else Cancelled
  }

  /** The count quoted when blocked is exactly the number of the client's
      orders: together with the others' orders it makes up the whole list. */
  lemma BlockedCountIsOwnedOrders(orders: seq<Order>, id: string, confirmed: bool)
    requires HandleDelete(orders, id, confirmed).Blocked?
    ensures HandleDelete(orders, id, confirmed).orderCount
         + |Lists.Filter(orders, (o: Order) => o.clientId != id)| == |orders|
  {
    Lists.FilterComplement(orders, OwnedBy(id), (o: Order) => o.clientId != id);
  }

  /** Every order names a client of the list. */
  ghost predicate NoOrphans(clients: seq<Client>, orders: seq<Order>) {
    forall j :: 0 <= j < |orders| ==> exists k :: 0 <= k < |clients| && clients[k].id == orders[j].clientId
  }

  /** The guard keeps the data consistent: deleting a client the table lets
      through leaves no order without its client. */
  lemma DeleteKeepsNoOrphans(clients: seq<Client>, orders: seq<Order>, id: string)
    requires NoOrphans(clients, orders)
    requires HandleDelete(orders, id, true).Deleted?
    ensures NoOrphans(Lists.Filter(clients, (c: Client) => c.id != id), orders)
  {
    var rest := Lists.Filter(clients, (c: Client) => c.id != id);
    forall j | 0 <= j < |orders|
      ensures exists k :: 0 <= k < |rest| && rest[k].id == orders[j].clientId
    {
      var k :| 0 <= k < |clients| && clients[k].id == orders[j].clientId;
      assert clients[k].id != id;
      assert clients[k] in rest;
      var m :| 0 <= m < |rest| && rest[m] == clients[k];
    }
  }

  /** `getMessageCount(clientId)`: `None` is a `data` that is not an array
      (an absent `data` defaults to the empty array). */
  function MessageCount(messages: Option<seq<Message>>, clientId: string): (r: nat)
    ensures messages.None? ==> r == 0
    ensures messages.Some? ==> r <= |messages.value|
    ensures r == 0 <==> messages.None? || forall j :: 0 <= j < |messages.value| ==> messages.value[j].clientId != clientId
  {
    if messages.None? then 0
    else
      Lists.FilterEmpty(messages.value, (m: Message) => m.clientId == clientId);
      |Lists.Filter(messages.value, (m: Message) => m.clientId == clientId)|
  }

  /** New messages add to the count: the count over a longer history is
      the sum of the counts over its parts. */
  lemma MessageCountAdds(xs: seq<Message>, ys: seq<Message>, clientId: string)
    ensures MessageCount(Some(xs + ys), clientId) == MessageCount(Some(xs), clientId) + MessageCount(Some(ys), clientId)
  {
    Lists.FilterAppend(xs, ys, (m: Message) => m.clientId == clientId);
  }

  /** The edit dialog of this table. */
  type Editor = EditDialog.Editor<Client>

  function ClientId(c: Client): string { c.id }

  /** `handleUpdate(data)`: `onUpdate(editingClient.id, data)`, then close. */
  function HandleUpdate(e: Editor, data: Validations.ClientUpdateForm): (r: (Editor, Option<(string, Validations.ClientUpdateForm)>))
    ensures e.editing.None? ==> r.1.None? && r.0 == e
    ensures e.editing.Some? ==> r.1 == Some((e.editing.value.id, data)) && r.0.editing.None? && !r.0.formOpen
  {
    EditDialog.Submit(e, data, ClientId)
  }

  /** Editing a row and saving updates that row's client. */
  lemma EditedRowIsUpdated(e: Editor, c: Client, data: Validations.ClientUpdateForm)
    ensures HandleUpdate(EditDialog.Edit(e, c), data).1 == Some((c.id, data))
  {
  }

  /** The send button of a row. */
  datatype SendButton = SendButton(disabled: bool, title: string)

  function RowSendButton(c: Client): (b: SendButton)
    ensures b.disabled <==> c.phone == ""
    ensures b.title == (if c.phone == "" then "El cliente debe tener teléfono para enviar mensajes" else "Enviar mensaje")
  {
    if c.phone == "" then SendButton(true, "El cliente debe tener teléfono para enviar mensajes")
    else SendButton(false, "Enviar mensaje")
  }

  /** No two clients share an id. */
  predicate UniqueClientIds(clients: seq<Client>) {
    forall i, j :: 0 <= i < |clients| && 0 <= j < |clients| && clients[i].id == clients[j].id ==> i == j
  }

  /** The modal's props: only the client id, from the row last chosen. */
  function ModalClientId(sendMessageClient: Option<Client>): (r: Option<string>)
    ensures r.Some? <==> sendMessageClient.Some?
    ensures r.Some? ==> r.value == sendMessageClient.value.id
  {
    if sendMessageClient.Some? then Some(sendMessageClient.value.id) else None
  }

  /** The send modal of this table. */
  type SendHost = SendModalHost.Host<Client>

  /** The modal's mount, at the first render with a non-empty list: no
      client is chosen (none yet, or reset by the last close), so the
      modal's form is created without one. */
  function MountSendModal(): (h: SendHost)
    ensures !h.open && h.chosen.None?
    ensures h.modal.form == SendMessage.Defaults(None, None)
    ensures h.modal.form.clientId == "" && h.modal.form.orderId == ""
  {
    SendModalHost.Mount(ModalClientId(None), None)
  }

  /** The row's send button does not preselect its client: whatever happened
      before, the modal it opens receives the client's id as a prop but
      shows a form with no client and no order, which the schema rejects. */
  lemma RowSendOpensBlankForm(acts: seq<SendModalHost.Action<Client>>, c: Client,
                              clients: seq<Client>, orders: seq<Order>)
    ensures
      var h := SendModalHost.Open(SendModalHost.Run(MountSendModal(), acts), c);
      && h.open && ModalClientId(h.chosen) == Some(c.id)
      && h.modal.form.clientId == "" && h.modal.form.orderId == ""
      && SendMessage.Submit(h.modal.form, Some(clients), Some(orders)).Invalid?
      && ((forall j :: 0 <= j < |clients| ==> clients[j].id != "") ==>
            SendMessage.SelectedClient(Some(clients), h.modal.form.clientId).None?)
  {
    SendModalHost.RunKeepsFirstDefaults(MountSendModal(), acts);
  }

  /** An enabled send button does not protect the modal's phone check: the
      user still picks the client in the modal, and a client without a phone
      stops at the missing-phone toast, whichever row opened it. */
  lemma ModalPhoneCheckIgnoresRow(acts: seq<SendModalHost.Action<Client>>, c: Client,
                                  clients: seq<Client>, orders: seq<Order>, d: Client, o: Order)
    requires !RowSendButton(c).disabled
    requires UniqueClientIds(clients) && d in clients && d.id != "" && d.phone == ""
    requires SendMessage.UniqueOrderIds(orders) && o in orders && o.id != "" && o.clientId == d.id
    ensures
      var h := SendModalHost.Open(SendModalHost.Run(MountSendModal(), acts), c);
      var s := SendMessage.SelectTemplate(SendMessage.SelectOrder(SendMessage.SelectClient(h.modal, d.id), o.id), "confirmacion");
      SendMessage.Submit(s.form, Some(clients), Some(orders)) == SendMessage.NoPhone
  {
    SendModalHost.RunKeepsFirstDefaults(MountSendModal(), acts);
    var h := SendModalHost.Open(SendModalHost.Run(MountSendModal(), acts), c);
    var f := SendMessage.SelectTemplate(SendMessage.SelectOrder(SendMessage.SelectClient(h.modal, d.id), o.id), "confirmacion").form;
    assert f.clientId == d.id && f.orderId == o.id && f.channel == "whatsapp" && f.templateType == Some("confirmacion");
    assert SendMessage.SchemaAccepts(f);
    var i :| 0 <= i < |clients| && clients[i] == d;
    assert Lists.FirstIndex(clients, (x: Client) => x.id == d.id) == i;
    assert SendMessage.SelectedClient(Some(clients), d.id) == Some(d);
    var j :| 0 <= j < |orders| && orders[j] == o;
    assert Lists.FirstIndex(orders, (x: Order) => x.id == o.id) == j;
    assert SendMessage.SelectedOrder(Some(orders), o.id) == Some(o);
  }
}

=== FILE: dashboard.dfy ===
/** The two dashboard pages that summarise orders: the overview
    (src/app/dashboard/page.tsx) and the orders page
    (src/app/dashboard/orders/page.tsx). The query hooks' results are
    inputs. */
module Dashboard {
  import opened Js
  import opened Records
  import Lists
  import Validations
  import OrdersApi

  /** `order => order.status === s`. */
  function WithStatus(s: OrderStatus): Order -> bool {
    (o: Order) => o.status == s
  }

  /** `orders.filter(order => order.status === s).length`. */
  function CountStatus(orders: seq<Order>, s: OrderStatus): (r: nat)
    ensures r <= |orders|
    ensures r == 0 <==> forall j :: 0 <= j < |orders| ==> orders[j].status != s
  {
    Lists.FilterEmpty(orders, WithStatus(s));
    |Lists.Filter(orders, WithStatus(s))|
  }

  lemma CountStatusCons(o: Order, rest: seq<Order>, s: OrderStatus)
    ensures CountStatus([o] + rest, s) == (if o.status == s then 1 else 0) + CountStatus(rest, s)
  {
    assert ([o] + rest)[1..] == rest;
  }

  /** Every order has exactly one of the four statuses, so the four counts
      add up to the number of orders. */
  lemma {:induction false} StatusCountsPartition(orders: seq<Order>)
    ensures CountStatus(orders, Pendiente) + CountStatus(orders, EnProceso)
          + CountStatus(orders, Completado) + CountStatus(orders, Cancelado) == |orders|
    decreases |orders|
  {
    if |orders| > 0 {
      var rest := orders[1..];
      assert orders == [orders[0]] + rest;
      StatusCountsPartition(rest);
      CountStatusCons(orders[0], rest, Pendiente);
      CountStatusCons(orders[0], rest, EnProceso);
      CountStatusCons(orders[0], rest, Completado);
      CountStatusCons(orders[0], rest, Cancelado);
    }
  }

  /** The figures of the overview's stat cards. */
  datatype Stats = Stats(totalClients: nat, pending: nat, inProgress: nat, completed: nat)

  /** What the overview renders. */
  datatype Overview = Skeleton | Cards(stats: Stats)

  /** `DashboardPage`: four skeleton cards while either query loads. */
  function DashboardPage(clients: seq<Client>, orders: seq<Order>, clientsLoading: bool, ordersLoading: bool): (v: Overview)
    ensures v.Skeleton? <==> clientsLoading || ordersLoading
    ensures v.Cards? ==> v.stats.totalClients == |clients|
    ensures v.Cards? ==>
      && v.stats.pending == CountStatus(orders, Pendiente)
      && v.stats.inProgress == CountStatus(orders, EnProceso)
      && v.stats.completed == CountStatus(orders, Completado)
  {
    if clientsLoading || ordersLoading then Skeleton
    else Cards(Stats(|clients|, CountStatus(orders, Pendiente), CountStatus(orders, EnProceso), CountStatus(orders, Completado)))
  }

  /** The three order cards leave out only the cancelled orders: their sum
      is the number of orders less the cancelled ones. */
  lemma ShownCountsOmitCancelled(clients: seq<Client>, orders: seq<Order>)
    ensures
      var s := DashboardPage(clients, orders, false, false).stats;
      s.pending + s.inProgress + s.completed == |orders| - CountStatus(orders, Cancelado)
      && s.pending + s.inProgress + s.completed <= |orders|
  {
    StatusCountsPartition(orders);
  }

  /** What `OrderForm` hands to `onSubmit`: the create schema's data carries
      a `clientId` key, the update schema's does not. */
  datatype FormData = CreateData(create: Validations.OrderForm) | UpdateData(update: Validations.OrderUpdateForm)

  /** The keys of the object `OrderForm` hands over, in the schema's order. */
  function FormKeys(d: FormData): seq<string> {
    match d
    case CreateData(_) => ["clientId", "description"]
    case UpdateData(_) => ["description", "status"]
  }

  /** `'clientId' in data`. */
  function HasClientIdKey(d: FormData): (r: bool)
    ensures r <==> "clientId" in FormKeys(d)
  {
    d.CreateData?
  }

  /** `handleCreate(data)`: the request `createOrder` sends, and whether the
      create form stays open. */
  function HandleCreate(formOpen: bool, d: FormData): (r: (bool, Option<OrdersApi.Request>))
    ensures r.1.Some? <==> HasClientIdKey(d)
    ensures HasClientIdKey(d) ==>
      && !r.0
      && r.1.value.body == Some([("clientId", d.create.clientId), ("description", d.create.description)])
    ensures !HasClientIdKey(d) ==> r.0 == formOpen
  {
    if d.CreateData? then (false, Some(OrdersApi.Create(d.create))) else (formOpen, None)
  }

  /** `handleUpdate(id, data)`: `updateOrder({ id, data })`, which the hook
      passes to `ordersApi.update`. */
  function HandleUpdate(id: string, data: Validations.OrderUpdateForm): (r: OrdersApi.Request)
    ensures r.verb == OrdersApi.Put && OrdersApi.PathId(r.path) == Some(id)
    ensures r.body == Some(OrdersApi.UpdatePayload(OrdersApi.FormEntries(data)))
    ensures Validations.OrderUpdateIssues(data) == [] ==>
      r.body.value == (if data.description.Some? then [("description", data.description.value)] else [])
                      + (if data.status.Some? then [("status", data.status.value)] else [])
  {
    if Validations.OrderUpdateIssues(data) == [] then
      OrdersApi.ValidUpdateSendsPresentFields(id, data);
      OrdersApi.Update(id, data)
    else
      OrdersApi.Update(id, data)
  }

  /** What the orders page renders. */
  datatype OrdersView =
    | Loading
    | Page(createDisabled: bool, showNoClientsWarning: bool, pending: nat, inProgress: nat, completed: nat)

  /** `OrdersPage`. */
  function OrdersPage(clients: seq<Client>, orders: seq<Order>, clientsLoading: bool, ordersLoading: bool): (v: OrdersView)
    ensures v.Loading? <==> clientsLoading || ordersLoading
    ensures v.Page? ==> (v.createDisabled <==> |clients| == 0)
    ensures v.Page? ==> (v.showNoClientsWarning <==> |clients| == 0)
  {
    if ordersLoading || clientsLoading then Loading
    else Page(|clients| == 0, |clients| == 0,
              CountStatus(orders, Pendiente), CountStatus(orders, EnProceso), CountStatus(orders, Completado))
  }

  /** The orders page and the overview show the same three counts. */
  lemma PagesAgreeOnCounts(clients: seq<Client>, orders: seq<Order>)
    ensures
      var p := OrdersPage(clients, orders, false, false);
      var s := DashboardPage(clients, orders, false, false).stats;
      p.pending == s.pending && p.inProgress == s.inProgress && p.completed == s.completed
  {
  }
}

=== FILE: editor.dfy ===
/** The edit dialog both tables share: which record is being edited and
    whether the form is open (`editingClient`/`editingOrder` and
    `isFormOpen`), with `handleEdit`, `handleCloseForm` and `handleUpdate`. */
module EditDialog {
  import opened Js

  datatype Editor<T> = Editor(editing: Option<T>, formOpen: bool)

  function Closed<T>(): Editor<T> {
    Editor(None, false)
  }

  /** `handleEdit(record)`. */
  function Edit<T>(e: Editor<T>, record: T): (r: Editor<T>)
    ensures r.editing == Some(record) && r.formOpen
  {
    Editor(Some(record), true)
  }

  /** `handleCloseForm`. */
  function Close<T>(e: Editor<T>): (r: Editor<T>)
    ensures r.editing.None? && !r.formOpen
  {
    Closed()
  }

  /** `handleUpdate(data)`: with a record being edited, calls
      `onUpdate(record.id, data)` (the returned call) and closes; with none,
      does nothing at all. */
  function Submit<T, D>(e: Editor<T>, data: D, id: T -> string): (r: (Editor<T>, Option<(string, D)>))
    ensures e.editing.None? ==> r == (e, None)
    ensures e.editing.Some? ==> r.1 == Some((id(e.editing.value), data)) && r.0 == Closed()
  {
    if e.editing.Some? then (Closed(), Some((id(e.editing.value), data))) else (e, None)
  }

  /** Each edit leads to at most one update: once submitted, a second submit
      (a double click) calls nothing. */
  lemma {:induction false} OneUpdatePerEdit<T, D>(e: Editor<T>, record: T, first: D, second: D, id: T -> string)
    ensures Submit(Edit(e, record), first, id).1 == Some((id(record), first))
    ensures Submit(Submit(Edit(e, record), first, id).0, second, id).1.None?
  {
    var after := Submit(Edit(e, record), first, id).0;
    assert after == Closed();
  }

  /** A closed dialog never updates. */
  lemma CloseThenSubmitIsInert<T, D>(e: Editor<T>, data: D, id: T -> string)
    ensures Submit(Close(e), data, id) == (Closed(), None)
  {
  }
}

=== FILE: errors.dfy ===
/** The error-message fallback of src/lib/types/errors.ts. */
module ApiErrors {
  import opened Js

  /** `error.response.data`. */
  datatype ErrorData = ErrorData(error: Option<string>)

  /** `error.response`. */
  datatype ErrorResponse = ErrorResponse(data: Option<ErrorData>)

  /** The shape `getErrorMessage` reads from whatever was thrown. */
  datatype ApiError = ApiError(response: Option<ErrorResponse>, message: Option<string>)

  const Unknown := "Error desconocido"

  /** `apiError?.response?.data?.error`. */
  function ServerText(e: Option<ApiError>): Option<string> {
    if e.Some? && e.value.response.Some? && e.value.response.value.data.Some?
    then e.value.response.value.data.value.error
    else None
  }

  /** `apiError?.message`. */
  function OwnText(e: Option<ApiError>): Option<string> {
    if e.Some? then e.value.message else None
  }

  /** `getErrorMessage`: the server's error text, else the error's own message,
      else "Error desconocido"; an empty string counts as absent. */
  function GetErrorMessage(e: Option<ApiError>): (r: string)
    ensures r != ""
    ensures Truthy(ServerText(e)) ==> r == ServerText(e).value
    ensures !Truthy(ServerText(e)) && Truthy(OwnText(e)) ==> r == OwnText(e).value
    ensures !Truthy(ServerText(e)) && !Truthy(OwnText(e)) ==> r == Unknown
  {
    Or(OrOpt(ServerText(e), OrOpt(OwnText(e), "")), Unknown)
  }

  /** The hooks write `getErrorMessage(error) || 'Error al …'`
      (src/hooks/useClients.ts:24): since the message is never empty, the
      hook's own default is never shown. */
  lemma HookDefaultUnreachable(e: Option<ApiError>, hookDefault: string)
    ensures Or(GetErrorMessage(e), hookDefault) == GetErrorMessage(e)
  {
  }

  /** An empty server text falls through to the error's own message, exactly as
      if the server had sent no text at all. */
  lemma EmptyServerTextIsAbsent(msg: Option<string>)
    ensures GetErrorMessage(Some(ApiError(Some(ErrorResponse(Some(ErrorData(Some(""))))), msg)))
         == GetErrorMessage(Some(ApiError(None, msg)))
  {
  }
}

=== FILE: js.dfy ===
/** JavaScript value conventions shared by every part of the front end:
    `undefined`/`null` as `None`, thrown errors as `Err`, string truthiness,
    and the browser's `localStorage` as a string-to-string map. */
module Js {

  /** A value that may be `undefined` or `null`. */
  datatype Option<+T> = None | Some(value: T) {
    function GetOr(default: T): T {
      match this
      case Some(v) => v
      case None => default
    }
  }

  /** The result of a call that either returns or throws an `Error` with a message. */
  datatype Result<+T> = Ok(value: T) | Err(message: string)

  /** `localStorage`: absent keys read as `null`. */
  type Storage = map<string, string>

  /** `a` and `b` agree on every key outside `keys`: same presence, same value. */
  ghost predicate SameOutside(a: Storage, b: Storage, keys: set<string>) {
    forall k :: k !in keys ==> (k in a <==> k in b) && (k in a ==> a[k] == b[k])
  }

  /** A plain JavaScript object whose fields are strings; an absent key reads as `undefined`. */
  type JsObject = map<string, string>

  /** `localStorage.getItem(key)`. */
  function GetItem(storage: Storage, key: string): (r: Option<string>)
    ensures r.Some? <==> key in storage
    ensures r.Some? ==> r.value == storage[key]
  {
    if key in storage then Some(storage[key]) else None
  }

  /** A field read `obj.key` on a string-valued object. */
  function Field(obj: JsObject, key: string): Option<string> {
    GetItem(obj, key)
  }

  /** An optional string is truthy iff it is present and non-empty. */
  predicate Truthy(s: Option<string>) {
    s.Some? && s.value != ""
  }

  /** `a || b` on strings: the empty string is falsy. */
  function Or(a: string, b: string): (r: string)
    ensures r == a || r == b
    ensures r != "" <==> a != "" || b != ""
    ensures a != "" ==> r == a
  {
    if a != "" then a else b
  }

  /** `a || b` where `a` may be `undefined`. */
  function OrOpt(a: Option<string>, b: string): (r: string)
    ensures Truthy(a) ==> r == a.value
    ensures !Truthy(a) ==> r == b
  {
    if Truthy(a) then a.value else b
  }

  /** `a || b` where both may be `undefined`. */
  function OrBoth(a: Option<string>, b: Option<string>): (r: Option<string>)
    ensures Truthy(a) ==> r == a
    ensures !Truthy(a) ==> r == b
  {
    if Truthy(a) then a else b
  }
}

=== FILE: lists.dfy ===
/** The array operations the front end relies on: `filter`, `find` and
    `filter(...).length`, with the facts the components' contracts need. */
module Lists {
  import opened Js

  /** `xs.filter(p)`: the elements satisfying `p`, in their original order. */
  function Filter<T>(xs: seq<T>, p: T -> bool): (r: seq<T>)
    ensures |r| <= |xs|
    ensures forall i :: 0 <= i < |r| ==> r[i] in xs && p(r[i])
    ensures forall i :: 0 <= i < |xs| && p(xs[i]) ==> xs[i] in r
    decreases |xs|
  {
    if |xs| == 0 then []
    else (if p(xs[0]) then [xs[0]] else []) + Filter(xs[1..], p)
  }

  /** Filtering distributes over concatenation. */
  lemma {:induction false} FilterAppend<T>(xs: seq<T>, ys: seq<T>, p: T -> bool)
    ensures Filter(xs + ys, p) == Filter(xs, p) + Filter(ys, p)
    decreases |xs|
  {
    if |xs| == 0 {
      assert xs + ys == ys;
    } else {
      assert (xs + ys)[1..] == xs[1..] + ys;
      FilterAppend(xs[1..], ys, p);
    }
  }

  /** Filtering a one-element sequence. */
  lemma FilterSingle<T>(x: T, p: T -> bool)
    ensures Filter([x], p) == if p(x) then [x] else []
  {
    assert [x][1..] == [];
  }

  /** Filtering by `p` keeps every element when all satisfy `p`. */
  lemma {:induction false} FilterAll<T>(xs: seq<T>, p: T -> bool)
    requires forall i :: 0 <= i < |xs| ==> p(xs[i])
    ensures Filter(xs, p) == xs
    decreases |xs|
  {
    if |xs| > 0 {
      FilterAll(xs[1..], p);
    }
  }

  /** Filtering twice by the same predicate is filtering once. */
  lemma {:induction false} FilterIdempotent<T>(xs: seq<T>, p: T -> bool)
    ensures Filter(Filter(xs, p), p) == Filter(xs, p)
  {
    var r := Filter(xs, p);
    forall i | 0 <= i < |r| ensures p(r[i]) {
      assert r[i] in r;
    }
    FilterAll(r, p);
  }

  /** Filtering by `p` and by its negation splits the sequence:
      the two lengths add up to the original length. */
  lemma {:induction false} FilterComplement<T>(xs: seq<T>, p: T -> bool, q: T -> bool)
    requires forall x :: q(x) == !p(x)
    ensures |Filter(xs, p)| + |Filter(xs, q)| == |xs|
    decreases |xs|
  {
    if |xs| > 0 {
      FilterComplement(xs[1..], p, q);
    }
  }

  /** The number of elements satisfying `p` is zero iff none does. */
  lemma {:induction false} FilterEmpty<T>(xs: seq<T>, p: T -> bool)
    ensures |Filter(xs, p)| == 0 <==> forall i :: 0 <= i < |xs| ==> !p(xs[i])
  {
    var r := Filter(xs, p);
    if |r| > 0 {
      assert r[0] in xs && p(r[0]);
    }
  }

  /** A weaker predicate keeps at least as many elements. */
  lemma {:induction false} FilterWeaker<T>(xs: seq<T>, p: T -> bool, q: T -> bool)
    requires forall i :: 0 <= i < |xs| && p(xs[i]) ==> q(xs[i])
    ensures |Filter(xs, p)| <= |Filter(xs, q)|
    decreases |xs|
  {
    if |xs| > 0 {
      FilterWeaker(xs[1..], p, q);
    }
  }

  /** The index of the first element satisfying `p`, or -1. */
  function FirstIndex<T>(xs: seq<T>, p: T -> bool): (i: int)
    ensures -1 <= i < |xs|
    ensures i >= 0 ==> p(xs[i])
    ensures i >= 0 ==> forall j :: 0 <= j < i ==> !p(xs[j])
    ensures i == -1 ==> forall j :: 0 <= j < |xs| ==> !p(xs[j])
    decreases |xs|
  {
    if |xs| == 0 then -1
    else if p(xs[0]) then 0
    else
      var k := FirstIndex(xs[1..], p);
      if k < 0 then -1 else k + 1
  }

  /** Appending an element moves no first index: the first match of the
      longer sequence is the old one, else the new element if it matches. */
  lemma {:induction false} FirstIndexAppend<T>(xs: seq<T>, x: T, p: T -> bool)
    ensures FirstIndex(xs + [x], p) == if FirstIndex(xs, p) >= 0 then FirstIndex(xs, p) else if p(x) then |xs| else -1
    decreases |xs|
  {
    if |xs| > 0 {
      assert (xs + [x])[1..] == xs[1..] + [x];
      FirstIndexAppend(xs[1..], x, p);
    }
  }

  /** `xs.find(p)`: the first element satisfying `p`, or `undefined`. */
  function Find<T>(xs: seq<T>, p: T -> bool): (r: Option<T>)
    ensures r.None? <==> forall j :: 0 <= j < |xs| ==> !p(xs[j])
    ensures r.Some? ==> r.value in xs && p(r.value)
    ensures r.Some? ==> r.value == xs[FirstIndex(xs, p)]
  {
    var i := FirstIndex(xs, p);
    if i < 0 then None else Some(xs[i])
  }
}

=== FILE: message_generator.dfy ===
/** `MessageGenerator` (src/components/messages/MessageGenerator.tsx): the
    lookups that fill the template variables, which fields are shown, and
    the decision behind "Enviar por WhatsApp". The clock, clipboard,
    `window.open` and toasts are outside the model. */
module MessageGenerator {
  import opened Js
  import opened Text
  import opened Records
  import Lists
  import Validations

  /** `getClientName(clientId)`: the first client with that id, or "". */
  function GetClientName(clients: seq<Client>, clientId: string): (r: string)
    ensures (forall j :: 0 <= j < |clients| ==> clients[j].id != clientId) ==> r == ""
    ensures (exists j :: 0 <= j < |clients| && clients[j].id == clientId) ==>
      exists j :: 0 <= j < |clients| && clients[j].id == clientId && r == clients[j].name
        && forall k :: 0 <= k < j ==> clients[k].id != clientId
  {
    match Lists.Find(clients, (c: Client) => c.id == clientId)
    case Some(c) => c.name
    case None => ""
  }

  /** What `getOrderInfo` returns. `clientName` is absent for an unknown order. */
  datatype OrderInfo = OrderInfo(date: string, status: string, clientName: Option<string>)

  /** `getOrderInfo(orderId)`; `today` is `new Date().toLocaleDateString('es-ES')`. */
  function GetOrderInfo(clients: seq<Client>, orders: seq<Order>, orderId: string, today: string): (r: OrderInfo)
    ensures (forall j :: 0 <= j < |orders| ==> orders[j].id != orderId) ==> r == OrderInfo("", "", None)
    ensures (exists j :: 0 <= j < |orders| && orders[j].id == orderId) ==>
      exists j :: 0 <= j < |orders| && orders[j].id == orderId
        && (forall k :: 0 <= k < j ==> orders[k].id != orderId)
        && r == OrderInfo(today, StatusName(orders[j].status), Some(GetClientName(clients, orders[j].clientId)))
  {
    match Lists.Find(orders, (o: Order) => o.id == orderId)
    case None => OrderInfo("", "", None)
    case Some(o) =>
      var owner := Lists.Find(clients, (c: Client) => c.id == o.clientId);
      OrderInfo(today, StatusName(o.status), Some(if owner.Some? then owner.value.name else ""))
  }

  /** `handleClientChange`: only the client name changes. */
  function HandleClientChange(v: Validations.TemplateVariables, clients: seq<Client>, clientId: string): (r: Validations.TemplateVariables)
    ensures r.clientName == Some(GetClientName(clients, clientId))
    ensures r.orderDate == v.orderDate && r.orderStatus == v.orderStatus
  {
    v.(clientName := Some(GetClientName(clients, clientId)))
  }

  /** `handleOrderChange`: all three variables are set together from the
      order's info; for an unknown order the client name is cleared. */
  function HandleOrderChange(v: Validations.TemplateVariables, clients: seq<Client>, orders: seq<Order>,
                             orderId: string, today: string): (r: Validations.TemplateVariables)
    ensures
      var info := GetOrderInfo(clients, orders, orderId, today);
      r == Validations.TemplateVariables(info.clientName, Some(info.date), Some(info.status))
  {
    var info := GetOrderInfo(clients, orders, orderId, today);
    v.(orderDate := Some(info.date), orderStatus := Some(info.status), clientName := info.clientName)
  }

  /** Choosing an order names its owner, as choosing the owner directly would. */
  lemma OrderChangeNamesOwner(v: Validations.TemplateVariables, clients: seq<Client>, orders: seq<Order>,
                              o: Order, today: string)
    requires o in orders
    requires forall j :: 0 <= j < |orders| && orders[j].id == o.id ==> orders[j] == o
    ensures HandleOrderChange(v, clients, orders, o.id, today).clientName
         == HandleClientChange(v, clients, o.clientId).clientName
  {
  }

  /** The order selector and the date/status inputs are shown only for these templates. */
  function ShowsOrderFields(templateType: string): (r: bool)
    ensures r ==> templateType in Validations.TemplateTypes && templateType != "confirmacion"
    ensures templateType in Validations.TemplateTypes && templateType != "confirmacion" ==> r
  {
    templateType == "recordatorio" || templateType == "seguimiento"
  }

  /** What a click on "Enviar por WhatsApp" selects. Each branch then calls
      `toast`, which MessageGenerator.tsx does not import; that throw is not
      part of the model. */
  datatype SendAction =
    | NothingGenerated          // asks the user to generate a message first
    | NoReachableClient         // asks for a client with a phone
    | OpenChat(phone: string, clientName: string)

  /** `client.phone.replace('+', '')`: only the first '+' goes, everything
      around it is kept. */
  function CleanPhone(phone: string): (r: string)
    ensures '+' !in phone ==> r == phone
    ensures '+' in phone ==> |r| == |phone| - 1
    ensures '+' in phone ==>
      exists k :: 0 <= k < |phone| && phone[k] == '+' && '+' !in phone[..k] && r == phone[..k] + phone[k + 1..]
  {
    if '+' in phone then
      ReplaceFirstChar(phone, '+');
      ReplaceFirst(phone, "+", "")
    else
      NoHeadNoOccurrence(phone, "+");
      ReplaceFirst(phone, "+", "")
  }

  /** `clients[j]` is the first client with that name. */
  predicate FirstNamed(clients: seq<Client>, clientName: Option<string>, j: int) {
    && 0 <= j < |clients| && Some(clients[j].name) == clientName
    && forall k :: 0 <= k < j ==> Some(clients[k].name) != clientName
  }

  /** The button's handler: the client is found by NAME among all clients,
      the first match wins, and it must have a phone. */
  function SendDecision(generatedText: string, clientName: Option<string>, clients: seq<Client>): (r: SendAction)
    ensures r.NothingGenerated? <==> generatedText == ""
    ensures r.OpenChat? ==>
      exists j :: FirstNamed(clients, clientName, j) && clients[j].phone != ""
        && r == OpenChat(CleanPhone(clients[j].phone), clients[j].name)
    ensures generatedText != "" ==>
      forall j :: FirstNamed(clients, clientName, j) && clients[j].phone != "" ==>
        r == OpenChat(CleanPhone(clients[j].phone), clients[j].name)
  {
    if generatedText == "" then NothingGenerated
    else
      match Lists.Find(clients, (c: Client) => Some(c.name) == clientName)
      case Some(c) => if c.phone != "" then OpenChat(CleanPhone(c.phone), c.name) else NoReachableClient
      case None => NoReachableClient
  }

  /** No two clients share a name. */
  predicate DistinctNames(clients: seq<Client>) {
    forall i, j :: 0 <= i < |clients| && 0 <= j < |clients| && clients[i].name == clients[j].name ==> i == j
  }

  /** When names are distinct, choosing a client in the selector and sending
      opens that client's chat exactly when it has a phone. */
  lemma DistinctNamesSendToChosen(v: Validations.TemplateVariables, clients: seq<Client>, c: Client, text: string)
    requires DistinctNames(clients) && c in clients
    requires forall j :: 0 <= j < |clients| && clients[j].id == c.id ==> clients[j] == c
    requires text != ""
    ensures
      var r := SendDecision(text, HandleClientChange(v, clients, c.id).clientName, clients);
      (r.OpenChat? <==> c.phone != "") && (r.OpenChat? ==> r == OpenChat(CleanPhone(c.phone), c.name))
  {
    var j :| 0 <= j < |clients| && clients[j] == c;
    assert Lists.FirstIndex(clients, (x: Client) => x.id == c.id) == j;
    assert FirstNamed(clients, Some(c.name), j);
  }

  /** A phone keeps every '+' after the first one. */
  lemma CleanPhoneKeepsLaterPlus(a: string, b: string)
    requires '+' !in a
    ensures CleanPhone(a + "+" + b) == a + b
    ensures '+' in b ==> '+' in CleanPhone(a + "+" + b)
  {
    ReplaceFirstAfter(a, "+", b, "");
    assert '+' in a + "+" + b by {
      assert (a + "+" + b)[|a|] == '+';
    }
  }

  /** Matching by name picks the wrong client when two share a name: after
      choosing the second "Ana", who has a phone, the first "Ana", who has
      none, is found and nothing is sent. */
  lemma SameNameShadowsSelection()
    ensures
      var first := Client("c1", "Ana", "", None);
      var second := Client("c2", "Ana", "5491122334455", None);
      var v := HandleClientChange(Validations.TemplateVariables(None, None, None), [first, second], "c2");
      v.clientName == Some("Ana") && SendDecision("Hola", v.clientName, [first, second]) == NoReachableClient
  {
    var first := Client("c1", "Ana", "", None);
    var second := Client("c2", "Ana", "5491122334455", None);
    assert Lists.FirstIndex([first, second], (c: Client) => c.id == "c2") == 1;
    assert Lists.FirstIndex([first, second], (c: Client) => Some(c.name) == Some("Ana")) == 0;
  }
}

=== FILE: message_history.dfy ===
/** `MessageHistory` (src/components/messages/MessageHistory.tsx): the filter
    state sent to the history query, the local text search, and the
    grouping of the result by client. */
module MessageHistory {
  import opened Js
  import opened Text
  import opened Records
  import Lists

  /** `MessageFilters`. */
  datatype Filters = Filters(clientId: Option<string>, orderId: Option<string>, status: Option<string>, channel: Option<string>)

  datatype FilterKey = ClientIdKey | OrderIdKey | StatusKey | ChannelKey

  function Get(f: Filters, k: FilterKey): Option<string> {
    match k
    case ClientIdKey => f.clientId
    case OrderIdKey => f.orderId
    case StatusKey => f.status
    case ChannelKey => f.channel
  }

  /** `handleFilterChange(key, value)`: `value || undefined` under `key`. */
  function HandleFilterChange(f: Filters, k: FilterKey, v: string): (r: Filters)
    ensures Get(r, k) == (if v == "" then None else Some(v))
    ensures forall k' :: k' != k ==> Get(r, k') == Get(f, k')
  {
    var value := if v == "" then None else Some(v);
    match k
    case ClientIdKey => f.(clientId := value)
    case OrderIdKey => f.(orderId := value)
    case StatusKey => f.(status := value)
    case ChannelKey => f.(channel := value)
  }

  /** The component's state: the filters and the search box. */
  datatype State = State(filters: Filters, searchTerm: string)

  /** The state on mount, and after `clearFilters`. */
  function ClearFilters(propClientId: Option<string>, propOrderId: Option<string>): (r: State)
    ensures r.filters.clientId == propClientId && r.filters.orderId == propOrderId
    ensures r.filters.status.None? && r.filters.channel.None?
    ensures r.searchTerm == ""
  {
    State(Filters(propClientId, propOrderId, None, None), "")
  }

  /** Choosing "all" in a selector (value "") is the same as never choosing. */
  lemma ChooseAllClears(f: Filters, k: FilterKey, v: string)
    ensures Get(HandleFilterChange(HandleFilterChange(f, k, v), k, ""), k).None?
    ensures HandleFilterChange(HandleFilterChange(f, k, v), k, "") == HandleFilterChange(f, k, "")
  {
  }

  /** The search predicate: case-insensitive substring. */
  function Matches(term: string): Message -> bool {
    (m: Message) => Includes(Lower(m.text), Lower(term))
  }

  /** `filteredMessages`. */
  function Search(messages: seq<Message>, term: string): (r: seq<Message>)
    ensures forall i :: 0 <= i < |r| ==> r[i] in messages && Includes(Lower(r[i].text), Lower(term))
    ensures forall i :: 0 <= i < |messages| && Includes(Lower(messages[i].text), Lower(term)) ==> messages[i] in r
  {
    Lists.Filter(messages, Matches(term))
  }

  /** An empty search box keeps every message, in order. */
  lemma EmptySearchKeepsAll(messages: seq<Message>)
    ensures Search(messages, "") == messages
  {
    forall i | 0 <= i < |messages| ensures Matches("")(messages[i]) {
      assert OccursAt(Lower(messages[i].text), "", 0);
    }
    Lists.FilterAll(messages, Matches(""));
  }

  /** The search ignores ASCII case in the term. */
  lemma SearchIgnoresTermCase(messages: seq<Message>, term: string)
    ensures Search(messages, Lower(term)) == Search(messages, term)
  {
    assert Lower(Lower(term)) == Lower(term);
    assert Matches(Lower(term)) == Matches(term);
  }

  /** One entry of `groupedMessages`. */
  datatype Group = Group(clientId: string, messages: seq<Message>)

  /** The messages of one client. */
  function SameClient(k: string): Message -> bool {
    (m: Message) => m.clientId == k
  }

  /** The group keys, in order. */
  function Keys(gs: seq<Group>): (r: seq<string>)
    ensures |r| == |gs|
    ensures forall i :: 0 <= i < |gs| ==> r[i] == gs[i].clientId
  {
    seq(|gs|, i requires 0 <= i < |gs| => gs[i].clientId)
  }

  /** Object keys are unique: no two groups share a client. */
  ghost predicate DistinctKeys(gs: seq<Group>) {
    forall i, j :: 0 <= i < j < |gs| ==> gs[i].clientId != gs[j].clientId
  }

  /** What one step of the `reduce` does to the groups `gs`: the message's
      group grows by the message, or a new group holding only the message
      is added at the end. */
  ghost predicate Added(gs: seq<Group>, m: Message, r: seq<Group>) {
    && (m.clientId in Keys(gs) ==>
         && |r| == |gs| && Keys(r) == Keys(gs)
         && forall i :: 0 <= i < |gs| ==>
              r[i].messages == gs[i].messages + (if gs[i].clientId == m.clientId then [m] else []))
    && (m.clientId !in Keys(gs) ==> r == gs + [Group(m.clientId, [m])])
  }

  /** One step of the `reduce`: push onto the message's group, creating it
      at the end when it is new. */
  function AddToGroups(gs: seq<Group>, m: Message): (r: seq<Group>)
    requires DistinctKeys(gs)
    ensures DistinctKeys(r)
    ensures m.clientId in Keys(gs) ==>
      && |r| == |gs| && Keys(r) == Keys(gs)
      && forall i :: 0 <= i < |gs| ==>
           r[i].messages == gs[i].messages + (if gs[i].clientId == m.clientId then [m] else [])
    ensures m.clientId !in Keys(gs) ==> r == gs + [Group(m.clientId, [m])]
    decreases |gs|
  {
    if |gs| == 0 then [Group(m.clientId, [m])]
    else if gs[0].clientId == m.clientId then
      assert forall i :: 1 <= i < |gs| ==> gs[i].clientId != m.clientId;
      [gs[0].(messages := gs[0].messages + [m])] + gs[1..]
    else
      var rest := AddToGroups(gs[1..], m);
      assert Added(gs[1..], m, rest);
      ConsOnto(gs[0], gs[1..], m, rest);
      assert [gs[0]] + gs[1..] == gs;
      [gs[0]] + rest
  }

  /** The step behind a group of another client: that group stays in front. */
  lemma ConsOnto(g: Group, tail: seq<Group>, m: Message, rest: seq<Group>)
    requires g.clientId != m.clientId
    requires DistinctKeys([g] + tail) && DistinctKeys(rest)
    requires Added(tail, m, rest)
    ensures DistinctKeys([g] + rest)
    ensures Added([g] + tail, m, [g] + rest)
  {
    var gs, r := [g] + tail, [g] + rest;
    HeadKeyNotInTail(g, tail);
    assert Keys(rest) == Keys(tail) || Keys(rest) == Keys(tail) + [m.clientId];
    DistinctCons(g, rest);
    KeysCons(g, tail);
    if m.clientId in Keys(tail) {
      forall i | 0 <= i < |gs|
        ensures r[i].messages == gs[i].messages + (if gs[i].clientId == m.clientId then [m] else [])
      {
        if i > 0 {
          assert r[i] == rest[i - 1] && gs[i] == tail[i - 1];
        }
      }
    }
  }

  lemma KeysCons(g: Group, gs: seq<Group>)
    ensures Keys([g] + gs) == [g.clientId] + Keys(gs)
  {
  }

  /** Distinct keys: the first key does not occur again. */
  lemma HeadKeyNotInTail(g: Group, tail: seq<Group>)
    requires DistinctKeys([g] + tail)
    ensures g.clientId !in Keys(tail)
  {
    var gs := [g] + tail;
    forall j | 0 <= j < |tail| ensures Keys(tail)[j] != g.clientId {
      assert gs[0] == g && gs[j + 1] == tail[j];
    }
  }

  /** A group whose key is new keeps the keys distinct when put in front. */
  lemma DistinctCons(g: Group, gs: seq<Group>)
    requires DistinctKeys(gs) && g.clientId !in Keys(gs)
    ensures DistinctKeys([g] + gs)
  {
    var r := [g] + gs;
    forall i, j | 0 <= i < j < |r| ensures r[i].clientId != r[j].clientId {
      if i == 0 {
        assert r[j].clientId == Keys(gs)[j - 1];
      }
    }
  }

  /** `groupedMessages`, then `Object.entries` in insertion order. */
  function GroupByClient(xs: seq<Message>): (r: seq<Group>)
    ensures DistinctKeys(r)
    decreases |xs|
  {
    if |xs| == 0 then [] else AddToGroups(GroupByClient(xs[..|xs| - 1]), xs[|xs| - 1])
  }

  /** No group is empty, so the render's `clientMessages[0]` always exists. */
  lemma {:induction false} GroupByClientNonEmpty(xs: seq<Message>)
    ensures forall i :: 0 <= i < |GroupByClient(xs)| ==> |GroupByClient(xs)[i].messages| > 0
    decreases |xs|
  {
    if |xs| > 0 {
      var init := xs[..|xs| - 1];
      GroupByClientNonEmpty(init);
      assert GroupByClient(xs) == AddToGroups(GroupByClient(init), xs[|xs| - 1]);
    }
  }

  /** The index of the client's first message, or -1. */
  function FirstSeen(xs: seq<Message>, k: string): int {
    Lists.FirstIndex(xs, SameClient(k))
  }

  /** The groups come in the order in which their clients first appear:
      every key occurs in the list, and an earlier key occurs earlier. */
  ghost predicate FirstAppearanceOrder(gs: seq<Group>, xs: seq<Message>) {
    && (forall i :: 0 <= i < |gs| ==> FirstSeen(xs, gs[i].clientId) >= 0)
    && (forall i, j :: 0 <= i < j < |gs| ==> FirstSeen(xs, gs[i].clientId) < FirstSeen(xs, gs[j].clientId))
  }

  /** Appending a message leaves the first appearance of every client
      already seen where it was. */
  lemma FirstSeenAppend(xs: seq<Message>, m: Message, k: string)
    ensures FirstSeen(xs, k) >= 0 ==> FirstSeen(xs + [m], k) == FirstSeen(xs, k)
    ensures FirstSeen(xs, k) < 0 ==> FirstSeen(xs + [m], k) == if m.clientId == k then |xs| else -1
  {
    Lists.FirstIndexAppend(xs, m, SameClient(k));
  }

  lemma {:induction false} GroupByClientKeyOrder(xs: seq<Message>)
    ensures FirstAppearanceOrder(GroupByClient(xs), xs)
    decreases |xs|
  {
    if |xs| > 0 {
      var init, last := xs[..|xs| - 1], xs[|xs| - 1];
      assert xs == init + [last];
      var gs := GroupByClient(init);
      assert GroupByClient(xs) == AddToGroups(gs, last);
      GroupByClientKeyOrder(init);
      GroupByClientPartitions(init);
      AddKeepsOrder(gs, init, last);
    }
  }

  /** One step of the `reduce` keeps the keys in first-appearance order. */
  lemma AddKeepsOrder(gs: seq<Group>, xs: seq<Message>, m: Message)
    requires DistinctKeys(gs) && Covers(gs, xs) && FirstAppearanceOrder(gs, xs)
    ensures FirstAppearanceOrder(AddToGroups(gs, m), xs + [m])
  {
    var r := AddToGroups(gs, m);
    forall i | 0 <= i < |gs| ensures FirstSeen(xs + [m], gs[i].clientId) == FirstSeen(xs, gs[i].clientId) {
      FirstSeenAppend(xs, m, gs[i].clientId);
    }
    if m.clientId in Keys(gs) {
      forall i | 0 <= i < |r| ensures r[i].clientId == gs[i].clientId {
        assert r[i].clientId == Keys(r)[i];
      }
    } else {
      NewClientSeenLast(gs, xs, m);
    }
  }

  /** A client without a group so far first appears with the new message,
      after every client that has one. */
  lemma NewClientSeenLast(gs: seq<Group>, xs: seq<Message>, m: Message)
    requires Covers(gs, xs) && m.clientId !in Keys(gs)
    ensures FirstSeen(xs + [m], m.clientId) == |xs|
  {
    FirstSeenAppend(xs, m, m.clientId);
    forall j | 0 <= j < |xs| ensures !SameClient(m.clientId)(xs[j]) {
      assert xs[j].clientId in Keys(gs);
    }
  }

  /** Each group holds exactly its client's messages, in their original order. */
  ghost predicate GroupsAreFilters(gs: seq<Group>, xs: seq<Message>) {
    forall i :: 0 <= i < |gs| ==> gs[i].messages == Lists.Filter(xs, SameClient(gs[i].clientId))
  }

  /** Every message's client has a group. */
  ghost predicate Covers(gs: seq<Group>, xs: seq<Message>) {
    forall j :: 0 <= j < |xs| ==> xs[j].clientId in Keys(gs)
  }

  lemma AddKeepsFilters(gs: seq<Group>, xs: seq<Message>, m: Message)
    requires DistinctKeys(gs) && GroupsAreFilters(gs, xs) && Covers(gs, xs)
    ensures GroupsAreFilters(AddToGroups(gs, m), xs + [m])
  {
    var r := AddToGroups(gs, m);
    forall i | 0 <= i < |r| ensures r[i].messages == Lists.Filter(xs + [m], SameClient(r[i].clientId)) {
      var p := SameClient(r[i].clientId);
      Lists.FilterAppend(xs, [m], p);
      Lists.FilterSingle(m, p);
      if m.clientId in Keys(gs) {
        assert r[i].clientId == Keys(r)[i] == Keys(gs)[i] == gs[i].clientId;
      } else if i == |gs| {
        forall j | 0 <= j < |xs| ensures !p(xs[j]) {
          assert xs[j].clientId in Keys(gs);
        }
        Lists.FilterEmpty(xs, p);
      } else {
        assert r[i] == gs[i];
        assert Keys(gs)[i] == gs[i].clientId;
      }
    }
  }

  lemma AddKeepsCover(gs: seq<Group>, xs: seq<Message>, m: Message)
    requires DistinctKeys(gs) && Covers(gs, xs)
    ensures Covers(AddToGroups(gs, m), xs + [m])
  {
    var r := AddToGroups(gs, m);
    if m.clientId in Keys(gs) {
      assert Keys(r) == Keys(gs);
    } else {
      assert Keys(r) == Keys(gs) + [m.clientId];
    }
  }

  /** Grouping partitions the filtered list by client: one group per client,
      holding exactly that client's messages in their original order, and
      every message's client has a group. */
  lemma {:induction false} GroupByClientPartitions(xs: seq<Message>)
    ensures GroupsAreFilters(GroupByClient(xs), xs)
    ensures Covers(GroupByClient(xs), xs)
    decreases |xs|
  {
    if |xs| > 0 {
      var init, last := xs[..|xs| - 1], xs[|xs| - 1];
      assert xs == init + [last];
      var gs := GroupByClient(init);
      GroupByClientPartitions(init);
      AddKeepsFilters(gs, init, last);
      AddKeepsCover(gs, init, last);
      assert GroupByClient(xs) == AddToGroups(gs, last);
    }
  }

  /** The sizes of all groups. */
  function TotalSize(gs: seq<Group>): nat
    decreases |gs|
  {
    if |gs| == 0 then 0 else |gs[0].messages| + TotalSize(gs[1..])
  }

  lemma {:induction false} AddGrowsByOne(gs: seq<Group>, m: Message)
    requires DistinctKeys(gs)
    ensures TotalSize(AddToGroups(gs, m)) == TotalSize(gs) + 1
    decreases |gs|
  {
    if |gs| > 0 {
      var r := AddToGroups(gs, m);
      if gs[0].clientId == m.clientId {
        assert r[1..] == gs[1..];
      } else {
        AddGrowsByOne(gs[1..], m);
        assert r[1..] == AddToGroups(gs[1..], m);
      }
    }
  }

  /** No message is lost or duplicated: the group sizes add up to the list's length. */
  lemma {:induction false} GroupSizesSum(xs: seq<Message>)
    ensures TotalSize(GroupByClient(xs)) == |xs|
    decreases |xs|
  {
    if |xs| > 0 {
      GroupSizesSum(xs[..|xs| - 1]);
      AddGrowsByOne(GroupByClient(xs[..|xs| - 1]), xs[|xs| - 1]);
    }
  }

  /** `getClientName(clientId)`: the last eight characters of the id. */
  function ClientLabel(clientId: string): (r: string)
    ensures |r| == 8 + (if |clientId| <= 8 then |clientId| else 8)
    ensures r[..8] == "Cliente "
    ensures r[8..] == clientId[|clientId| - |r[8..]|..]
  {
    "Cliente " + Last(clientId, 8)
  }

  /** The group's badge: `{n} mensaje{n !== 1 ? 's' : ''}`. */
  function CountLabel(n: nat): (r: string)
    ensures r == NatToString(n) + " mensaje" || r == NatToString(n) + " mensajes"
    ensures r == NatToString(n) + " mensajes" <==> n != 1
  {
    NatToString(n) + " mensaje" + (if n != 1 then "s" else "")
  }
}

=== FILE: orders_api.dfy ===
/** The orders endpoints of src/lib/api/orders.ts as request descriptions,
    and the filtering `update` applies to its payload. */
module OrdersApi {
  import opened Js
  import opened Text
  import Validations
  import Records

  /** One entry of `Object.entries(data)`: a key and a value that may be `undefined`. */
  datatype Entry = Entry(key: string, value: Option<string>)

  /** The filter of `update`: `value !== undefined && value !== ''`. */
  predicate Kept(e: Entry) {
    Truthy(e.value)
  }

  /** The payload `update` sends: `Object.fromEntries` of the kept entries,
      as (key, value) pairs in their original order. */
  function UpdatePayload(entries: seq<Entry>): (r: seq<(string, string)>)
    ensures |r| <= |entries|
    ensures forall i :: 0 <= i < |r| ==> r[i].1 != "" && Entry(r[i].0, Some(r[i].1)) in entries
    ensures forall i :: 0 <= i < |entries| && Kept(entries[i]) ==> (entries[i].key, entries[i].value.value) in r
  {
    if |entries| == 0 then []
    else
      var e := entries[0];
      var rest := UpdatePayload(entries[1..]);
      assert forall i :: 1 <= i < |entries| ==> entries[i] == entries[1..][i - 1];
      if Kept(e) then [(e.key, e.value.value)] + rest else rest
  }

  /** The entries a payload would present if it were filtered again. */
  function AsEntries(p: seq<(string, string)>): (r: seq<Entry>)
    ensures |r| == |p|
    ensures forall i :: 0 <= i < |p| ==> r[i] == Entry(p[i].0, Some(p[i].1))
  {
    seq(|p|, i requires 0 <= i < |p| => Entry(p[i].0, Some(p[i].1)))
  }

  /** The keys of a payload, in order. */
  function Keys(p: seq<(string, string)>): (r: seq<string>)
    ensures |r| == |p|
    ensures forall i :: 0 <= i < |p| ==> r[i] == p[i].0
  {
    seq(|p|, i requires 0 <= i < |p| => p[i].0)
  }

  /** The keys of the input, in order. */
  function EntryKeys(entries: seq<Entry>): (r: seq<string>)
    ensures |r| == |entries|
    ensures forall i :: 0 <= i < |entries| ==> r[i] == entries[i].key
  {
    seq(|entries|, i requires 0 <= i < |entries| => entries[i].key)
  }

  /** Filtering is idempotent: a payload has nothing left to drop. */
  lemma {:induction false} UpdatePayloadIdempotent(p: seq<(string, string)>)
    requires forall i :: 0 <= i < |p| ==> p[i].1 != ""
    ensures UpdatePayload(AsEntries(p)) == p
  {
    if |p| > 0 {
      UpdatePayloadIdempotent(p[1..]);
      assert AsEntries(p)[1..] == AsEntries(p[1..]);
    }
  }

  /** `xs` is `ys` with some elements removed, order kept. */
  predicate Subsequence<T(==)>(xs: seq<T>, ys: seq<T>)
    decreases |ys|
  {
    if |ys| == 0 then |xs| == 0
    else (|xs| > 0 && xs[0] == ys[0] && Subsequence(xs[1..], ys[1..])) || Subsequence(xs, ys[1..])
  }

  /** The payload's keys are the input's keys with some dropped, in the same order. */
  lemma {:induction false} UpdatePayloadKeepsOrder(entries: seq<Entry>)
    ensures Subsequence(Keys(UpdatePayload(entries)), EntryKeys(entries))
  {
    if |entries| > 0 {
      UpdatePayloadKeepsOrder(entries[1..]);
      var rest := UpdatePayload(entries[1..]);
      assert EntryKeys(entries)[1..] == EntryKeys(entries[1..]);
      if Kept(entries[0]) {
        assert Keys(UpdatePayload(entries))[1..] == Keys(rest);
      }
    }
  }

  /** The entries of an order-update form, in the schema's field order. */
  function FormEntries(o: Validations.OrderUpdateForm): seq<Entry> {
    [Entry("description", o.description), Entry("status", o.status)]
  }

  /** For an update that passes `orderUpdateSchema` the "" half of the
      filter never fires: a present description has at least 5 characters
      and a present status is a non-empty name, so only absent fields are
      dropped. */
  lemma ValidUpdateDropsOnlyAbsent(o: Validations.OrderUpdateForm)
    requires Validations.OrderUpdateIssues(o) == []
    ensures UpdatePayload(FormEntries(o)) ==
      (if o.description.Some? then [("description", o.description.value)] else [])
      + (if o.status.Some? then [("status", o.status.value)] else [])
  {
    if o.status.Some? {
      var s: Records.OrderStatus :| Records.StatusName(s) == o.status.value;
      assert o.status.value != "" by {
        match s
        case Pendiente =>
        case EnProceso =>
        case Completado =>
        case Cancelado =>
      }
    }
  }

  const OrdersPath := "/orders"

  /** The path of one order. */
  function OrderPath(id: string): (p: string)
    ensures StartsWith(p, OrdersPath + "/")
    ensures p[|OrdersPath| + 1..] == id
  {
    OrdersPath + "/" + id
  }

  /** The id a path of `OrderPath`'s shape names. */
  function PathId(p: string): Option<string> {
    if StartsWith(p, OrdersPath + "/") then Some(p[|OrdersPath| + 1..]) else None
  }

  /** Distinct orders get distinct paths: the path names the id. */
  lemma OrderPathInjective(id: string)
    ensures PathId(OrderPath(id)) == Some(id)
  {
  }

  datatype Verb = Get | Post | Put | Delete

  /** One request `ordersApi` makes through the axios client. */
  datatype Request = Request(verb: Verb, path: string, body: Option<seq<(string, string)>>)

  /** `getAll`. */
  function GetAll(): (r: Request)
    ensures r.verb == Get && r.path == OrdersPath && r.body.None?
  {
    Request(Get, OrdersPath, None)
  }

  /** `create(data)`: the form goes out unfiltered. */
  function Create(data: Validations.OrderForm): (r: Request)
    ensures r.verb == Post && r.path == OrdersPath
    ensures r.body == Some([("clientId", data.clientId), ("description", data.description)])
  {
    Request(Post, OrdersPath, Some([("clientId", data.clientId), ("description", data.description)]))
  }

  /** `update(id, data)`. */
  function Update(id: string, data: Validations.OrderUpdateForm): (r: Request)
    ensures r.verb == Put && PathId(r.path) == Some(id)
    ensures r.body.Some? && forall i :: 0 <= i < |r.body.value| ==> r.body.value[i].1 != ""
    ensures r.body == Some(UpdatePayload(FormEntries(data)))
  {
    Request(Put, OrderPath(id), Some(UpdatePayload(FormEntries(data))))
  }

  /** A schema-valid update sends exactly its present fields, description
      first. */
  lemma ValidUpdateSendsPresentFields(id: string, data: Validations.OrderUpdateForm)
    requires Validations.OrderUpdateIssues(data) == []
    ensures Update(id, data).body.value ==
      (if data.description.Some? then [("description", data.description.value)] else [])
      + (if data.status.Some? then [("status", data.status.value)] else [])
  {
    ValidUpdateDropsOnlyAbsent(data);
  }

  /** The entries of an order-creation form. */
  function CreateEntries(data: Validations.OrderForm): seq<Entry> {
    [Entry("clientId", Some(data.clientId)), Entry("description", Some(data.description))]
  }

  /** `create` does not filter, and for a schema-valid form it need not:
      the body is what `update`'s filter would keep, and carries both keys. */
  lemma ValidCreateLosesNothing(data: Validations.OrderForm)
    requires Validations.OrderIssues(data) == []
    ensures Create(data).body == Some(UpdatePayload(CreateEntries(data)))
    ensures Keys(Create(data).body.value) == ["clientId", "description"]
  {
    var es := CreateEntries(data);
    assert data.clientId != "" && data.description != "";
    assert es[1..][1..] == [];
    assert UpdatePayload(es[1..][1..]) == [];
    assert UpdatePayload(es[1..]) == [("description", data.description)];
    assert UpdatePayload(es) == [("clientId", data.clientId)] + [("description", data.description)]
                             == [("clientId", data.clientId), ("description", data.description)];
  }

  /** The collection path, used by `getAll` and `create`, is not the path of
      any single order. */
  lemma CollectionPathIsNoOrderPath(id: string, data: Validations.OrderForm)
    ensures GetAll().path == Create(data).path == OrdersPath
    ensures PathId(GetAll().path).None?
    ensures GetAll().path != OrderPath(id)
  {
  }

  /** `delete(id)`: the same path as `update`. */
  function Remove(id: string): (r: Request)
    ensures r.verb == Delete && r.path == Update(id, Validations.OrderUpdateForm(None, None)).path && r.body.None?
  {
    Request(Delete, OrderPath(id), None)
  }
}

=== FILE: orders_table.dfy ===
/** `OrdersTable` (src/components/orders/OrdersTable.tsx): the owner lookup,
    the per-order message count, the status badge, the edit dialog, the
    unguarded delete and the send modal's props. */
module OrdersTable {
  import opened Js
  import opened Records
  import Lists
  import EditDialog
  import SendMessage
  import SendModalHost
  import Validations
  import ClientsTable
  import MessageGenerator

  const UnknownClient := "Cliente no encontrado"

  /** `getClientName(clientId)`. */
  function ClientName(clients: seq<Client>, clientId: string): (r: string)
    ensures (forall j :: 0 <= j < |clients| ==> clients[j].id != clientId) ==> r == UnknownClient
    ensures (exists j :: 0 <= j < |clients| && clients[j].id == clientId) ==>
      exists j :: 0 <= j < |clients| && clients[j].id == clientId && r == clients[j].name
        && forall k :: 0 <= k < j ==> clients[k].id != clientId
  {
    match Lists.Find(clients, (c: Client) => c.id == clientId)
    case Some(c) => c.name
    case None => UnknownClient
  }

  /** The table and the message generator name a known client alike; they
      differ only in the fallback for an unknown one. */
  lemma ClientNameAgreesWithGenerator(clients: seq<Client>, clientId: string)
    ensures (exists j :: 0 <= j < |clients| && clients[j].id == clientId) ==>
      ClientName(clients, clientId) == MessageGenerator.GetClientName(clients, clientId)
    ensures (forall j :: 0 <= j < |clients| ==> clients[j].id != clientId) ==>
      ClientName(clients, clientId) == UnknownClient && MessageGenerator.GetClientName(clients, clientId) == ""
  {
  }

  /** `getMessageCount(orderId)`. */
  function MessageCount(messages: seq<Message>, orderId: string): (r: nat)
    ensures r <= |messages|
    ensures r == 0 <==> forall j :: 0 <= j < |messages| ==> messages[j].orderId != orderId
  {
    Lists.FilterEmpty(messages, (m: Message) => m.orderId == orderId);
    |Lists.Filter(messages, (m: Message) => m.orderId == orderId)|
  }

  /** New messages add to the count: the count over a longer history is
      the sum of the counts over its parts. */
  lemma MessageCountAdds(xs: seq<Message>, ys: seq<Message>, orderId: string)
    ensures MessageCount(xs + ys, orderId) == MessageCount(xs, orderId) + MessageCount(ys, orderId)
  {
    Lists.FilterAppend(xs, ys, (m: Message) => m.orderId == orderId);
  }

  /** One message counts once for its own order and not at all for another. */
  lemma MessageCountSingle(m: Message, orderId: string)
    ensures MessageCount([m], orderId) == if m.orderId == orderId then 1 else 0
  {
    Lists.FilterSingle(m, (x: Message) => x.orderId == orderId);
  }

  /** When every message of an order is addressed to the order's owner, the
      order's count never exceeds the owner's count in the clients table. */
  lemma OrderCountWithinClientCount(messages: seq<Message>, o: Order)
    requires forall j :: 0 <= j < |messages| && messages[j].orderId == o.id ==> messages[j].clientId == o.clientId
    ensures MessageCount(messages, o.id) <= ClientsTable.MessageCount(Some(messages), o.clientId)
  {
    Lists.FilterWeaker(messages, (m: Message) => m.orderId == o.id, (m: Message) => m.clientId == o.clientId);
  }

  /** The status a badge text stands for. */
  function LabelStatus(text: string): Option<OrderStatus> {
    if text == "Pendiente" then Some(Pendiente)
    else if text == "En Proceso" then Some(EnProceso)
    else if text == "Completado" then Some(Completado)
    else if text == "Cancelado" then Some(Cancelado)
    else None
  }

  /** `statusLabels[order.status]`: the badge text names its status. */
  function StatusLabel(s: OrderStatus): (r: string)
    ensures LabelStatus(r) == Some(s)
  {
    match s
    case Pendiente => "Pendiente"
    case EnProceso => "En Proceso"
    case Completado => "Completado"
    case Cancelado => "Cancelado"
  }

  /** Distinct statuses get distinct badges. */
  lemma StatusLabelInjective(a: OrderStatus, b: OrderStatus)
    ensures StatusLabel(a) == StatusLabel(b) ==> a == b
  {
  }

  /** The edit dialog of this table. */
  type Editor = EditDialog.Editor<Order>

  function OrderId(o: Order): string { o.id }

  /** `handleUpdate(data)`: `onUpdate(editingOrder.id, data)`, then close. */
  function HandleUpdate(e: Editor, data: Validations.OrderUpdateForm): (r: (Editor, Option<(string, Validations.OrderUpdateForm)>))
    ensures e.editing.None? ==> r.1.None? && r.0 == e
    ensures e.editing.Some? ==> r.1 == Some((e.editing.value.id, data)) && r.0.editing.None? && !r.0.formOpen
  {
    EditDialog.Submit(e, data, OrderId)
  }

  /** `handleDelete(id)`: `onDelete(id)` after confirmation, with no check
      of the messages that refer to the order. */
  function HandleDelete(id: string, confirmed: bool): (r: Option<string>)
    ensures r.Some? <==> confirmed
    ensures r.Some? ==> r.value == id
  {
    if confirmed then Some(id) else None
  }

  /** Unlike a client, an order with messages is deleted once confirmed. */
  lemma DeleteIgnoresMessages(messages: seq<Message>, o: Order)
    requires MessageCount(messages, o.id) > 0
    ensures HandleDelete(o.id, true) == Some(o.id)
  {
  }

  /** The modal's props `clientId` and `orderId`, from the row last chosen. */
  function ModalProps(sendMessageOrder: Option<Order>): (r: (Option<string>, Option<string>))
    ensures sendMessageOrder.None? ==> r == (None, None)
    ensures sendMessageOrder.Some? ==> r == (Some(sendMessageOrder.value.clientId), Some(sendMessageOrder.value.id))
  {
    if sendMessageOrder.None? then (None, None)
    else (Some(sendMessageOrder.value.clientId), Some(sendMessageOrder.value.id))
  }

  /** The send modal of this table. */
  type SendHost = SendModalHost.Host<Order>

  /** The modal's mount, at the first render with a non-empty list: no
      order is chosen (none yet, or reset by the last close), so the
      modal's form is created without client or order. */
  function MountSendModal(): (h: SendHost)
    ensures !h.open && h.chosen.None?
    ensures h.modal.form == SendMessage.Defaults(None, None)
    ensures h.modal.form.clientId == "" && h.modal.form.orderId == ""
  {
    SendModalHost.Mount(ModalProps(None).0, ModalProps(None).1)
  }

  /** The row's send button does not preselect its order: whatever happened
      before, the modal it opens receives the order's ids as props but shows
      a form with no client and no order, which the schema rejects. */
  lemma RowSendOpensBlankForm(acts: seq<SendModalHost.Action<Order>>, o: Order, orders: seq<Order>)
    ensures
      var h := SendModalHost.Open(SendModalHost.Run(MountSendModal(), acts), o);
      && h.open && ModalProps(h.chosen) == (Some(o.clientId), Some(o.id))
      && h.modal.form.clientId == "" && h.modal.form.orderId == ""
      && !SendMessage.SchemaAccepts(h.modal.form)
      && ((forall j :: 0 <= j < |orders| ==> orders[j].id != "") ==>
            SendMessage.SelectedOrder(Some(orders), h.modal.form.orderId).None?)
  {
    SendModalHost.RunKeepsFirstDefaults(MountSendModal(), acts);
  }
}

=== FILE: pairing_modal.dfy ===
/** `ConnectWhatsAppModal` (src/components/whatsapp/ConnectWhatsAppModal.tsx):
    its local state as a reducer over the window events the socket service
    dispatches, and the render decisions over that state and the props. */
module PairingModal {
  import opened Js
  import opened Text
  import opened SocketService

  /** The three `useState` hooks, and whether the effect's listeners are
      registered (they are only while the modal is open). A `qr` of
      `undefined` behaves exactly like "" everywhere it is read, so it is
      stored as "". */
  datatype ModalState = ModalState(qr: string, isConnecting: bool, error: string, listening: bool)

  const Unmounted := ModalState("", false, "", false)

  const StatusErrorDefault := "Error al conectar WhatsApp"
  const ConnectionErrorDefault := "Error de conexión"

  /** The effect on `open` becoming true: reset, then listen. */
  function Open(s: ModalState): (r: ModalState)
    ensures r.qr == "" && !r.isConnecting && r.error == ""
    ensures r.listening
  {
    ModalState("", false, "", true)
  }

  /** The effect's cleanup when `open` becomes false: the listeners go,
      the state stays. */
  function Cleanup(s: ModalState): (r: ModalState)
    ensures !r.listening
    ensures r.(listening := s.listening) == s
  {
    s.(listening := false)
  }

  /** Requests a handler makes of its surroundings: `onOpenChange(false)`
      and the delayed `refetch()`. Toasts are not modelled. */
  datatype Effect = Effect(requestClose: bool, refetch: bool)

  const NoEffect := Effect(false, false)

  /** `handleQR`. */
  function OnQr(s: ModalState, detail: JsObject): (r: ModalState)
    ensures r.qr == Field(detail, "qr").GetOr("")
    ensures r.isConnecting && r.error == "" && r.listening == s.listening
  {
    s.(qr := Field(detail, "qr").GetOr(""), isConnecting := true, error := "")
  }

  /** `handleStatus`. */
  function OnStatus(s: ModalState, detail: JsObject): (r: (ModalState, Effect))
    ensures r.0.qr == s.qr && r.0.listening == s.listening
    ensures Field(detail, "status") == Some("connected") ==>
      !r.0.isConnecting && r.0.error == "" && r.1 == Effect(true, true)
    ensures Field(detail, "status") == Some("error") ==>
      && !r.0.isConnecting && r.1 == NoEffect
      && r.0.error == (if Truthy(Field(detail, "message")) then detail["message"] else StatusErrorDefault)
    ensures Field(detail, "status") == Some("connecting") ==>
      r.0.isConnecting && r.0.error == "" && r.1 == NoEffect
    ensures Field(detail, "status") !in {Some("connected"), Some("error"), Some("connecting")} ==>
      r == (s, NoEffect)
    ensures r.1.requestClose <==> Field(detail, "status") == Some("connected")
  {
    var status := Field(detail, "status");
    if status == Some("connected") then (s.(isConnecting := false, error := ""), Effect(true, true))
    else if status == Some("error") then
      (s.(isConnecting := false, error := OrOpt(Field(detail, "message"), StatusErrorDefault)), NoEffect)
    else if status == Some("connecting") then (s.(isConnecting := true, error := ""), NoEffect)
    else (s, NoEffect)
  }

  /** `handleError`: reads `detail.message`. */
  function OnError(s: ModalState, detail: JsObject): (r: ModalState)
    ensures !r.isConnecting && r.qr == s.qr && r.listening == s.listening
    ensures r.error != ""
    ensures Truthy(Field(detail, "message")) ==> r.error == detail["message"]
    ensures !Truthy(Field(detail, "message")) ==> r.error == ConnectionErrorDefault
  {
    s.(isConnecting := false, error := OrOpt(Field(detail, "message"), ConnectionErrorDefault))
  }

  /** One window event reaching the modal. Only the three registered event
      names are heard, and only while listening. */
  function Dispatch(s: ModalState, e: WindowEvent): (r: (ModalState, Effect))
    ensures !s.listening ==> r == (s, NoEffect)
    ensures e.name !in {QrEvent, StatusEvent, ErrorEvent} ==> r == (s, NoEffect)
    ensures r.0.listening == s.listening
    ensures s.listening && e.name == QrEvent ==> r == (OnQr(s, e.detail), NoEffect)
    ensures s.listening && e.name == StatusEvent ==> r == OnStatus(s, e.detail)
    ensures s.listening && e.name == ErrorEvent ==> r == (OnError(s, e.detail), NoEffect)
  {
    if !s.listening then (s, NoEffect)
    else if e.name == QrEvent then (OnQr(s, e.detail), NoEffect)
    else if e.name == StatusEvent then OnStatus(s, e.detail)
    else if e.name == ErrorEvent then (OnError(s, e.detail), NoEffect)
    else (s, NoEffect)
  }

  /** `handleClose`: clear everything and ask to close. */
  function HandleClose(s: ModalState): (r: (ModalState, Effect))
    ensures r.0.qr == "" && !r.0.isConnecting && r.0.error == ""
    ensures r.0.listening == s.listening
    ensures r.1.requestClose && !r.1.refetch
  {
    (ModalState("", false, "", s.listening), Effect(true, false))
  }

  /** A sequence of window events, in order. */
  function Replay(s: ModalState, es: seq<WindowEvent>): ModalState
    decreases |es|
  {
    if |es| == 0 then s else Replay(Dispatch(s, es[0]).0, es[1..])
  }

  /** A closed modal hears nothing: any replay leaves its state alone. */
  lemma {:induction false} ClosedModalIgnoresEvents(s: ModalState, es: seq<WindowEvent>)
    requires !s.listening
    ensures Replay(s, es) == s
    decreases |es|
  {
    if |es| > 0 {
      ClosedModalIgnoresEvents(Dispatch(s, es[0]).0, es[1..]);
    }
  }

  /** The optional props that override local state. */
  datatype Props = Props(qrCode: Option<string>, isConnecting: Option<bool>, error: Option<string>)

  /** What the dialog shows. `serverStatus` is `status?.status` from the
      status query. */
  datatype View = View(
    cleanQr: string,
    connecting: bool,
    error: string,
    spinner: bool,
    showError: bool,
    showQr: bool,
    closeDisabled: bool,
    closeLabel: string)

  /** The render: prop precedence (`||` for strings, `!== undefined` for the
      flag), comma stripping, and the visibility conditions. */
  function Render(p: Props, s: ModalState, serverStatus: Option<string>): (v: View)
    ensures Truthy(p.qrCode) ==> v.cleanQr == RemoveAll(p.qrCode.value, ',')
    ensures !Truthy(p.qrCode) ==> v.cleanQr == RemoveAll(s.qr, ',')
    ensures ',' !in v.cleanQr
    ensures v.connecting == (if p.isConnecting.Some? then p.isConnecting.value else s.isConnecting)
    ensures v.error == (if Truthy(p.error) then p.error.value else s.error)
    ensures v.spinner <==> v.cleanQr == "" && !v.connecting && v.error == ""
    ensures v.showError <==> v.error != ""
    ensures v.showQr <==> v.cleanQr != ""
    ensures v.spinner ==> !v.showError && !v.showQr
    ensures v.closeDisabled <==> v.connecting
    ensures v.closeLabel == (if serverStatus == Some("connected") then "Cerrar" else "Cancelar")
  {
    var qr := OrOpt(p.qrCode, s.qr);
    var connecting := if p.isConnecting.Some? then p.isConnecting.value else s.isConnecting;
    var error := OrOpt(p.error, s.error);
    var clean := RemoveAll(qr, ',');
    View(clean, connecting, error,
      clean == "" && !connecting && error == "",
      error != "",
      clean != "",
      connecting,
      if serverStatus == Some("connected") then "Cerrar" else "Cancelar")
  }

  /** The socket publishes an error under `error` while the modal reads
      `message`: whatever the backend says, an open modal shows the default
      text. */
  lemma SocketErrorShowsDefault(s: Service, m: ModalState, msg: string)
    requires s.socket.Some? && m.listening
    ensures
      var ev := Receive(s, WhatsAppFailure(msg)).1.dispatch.value;
      Dispatch(m, ev).0.error == ConnectionErrorDefault
      && Render(Props(None, None, None), Dispatch(m, ev).0, None).error == ConnectionErrorDefault
  {
  }

  /** A QR from the socket reaches an open modal intact, and is what it shows
      (without commas) when no prop overrides it. */
  lemma SocketQrShown(s: Service, m: ModalState, code: string)
    requires s.socket.Some? && m.listening
    ensures
      var next := Dispatch(m, Receive(s, QrGenerated(code)).1.dispatch.value).0;
      next.qr == code && Render(Props(None, None, None), next, None).cleanQr == RemoveAll(code, ',')
  {
  }

  /** A `connected` status forwarded by the socket closes the modal and asks
      for a refetch, keeping the QR until the next open or close. */
  lemma SocketConnectedCloses(s: Service, m: ModalState, data: JsObject)
    requires s.socket.Some? && m.listening
    requires Field(data, "status") == Some("connected")
    ensures
      var r := Dispatch(m, Receive(s, StatusChange(data)).1.dispatch.value);
      r.1 == Effect(true, true) && r.0.qr == m.qr && !r.0.isConnecting
  {
  }
}

=== FILE: records.dfy ===
/** The records the API returns (src/lib/types/index.ts), fetched verbatim
    and never validated by the front end. */
module Records {
  import opened Js

  datatype User = User(id: string, name: string, email: string)

  datatype Client = Client(id: string, name: string, phone: string, email: Option<string>)

  datatype OrderStatus = Pendiente | EnProceso | Completado | Cancelado

  datatype Order = Order(id: string, clientId: string, description: string, status: OrderStatus)

  datatype Channel = WhatsApp | Email

  datatype DeliveryStatus = Queued | Sent | Delivered | Read | Failed

  datatype Message = Message(
    id: string,
    clientId: string,
    orderId: string,
    channel: Channel,
    status: DeliveryStatus,
    text: string,
    createdAt: string,
    providerMessageId: Option<string>)

  /** The wire name of an order status. */
  function StatusName(s: OrderStatus): string {
    match s
    case Pendiente => "pendiente"
    case EnProceso => "en_proceso"
    case Completado => "completado"
    case Cancelado => "cancelado"
  }

  /** The order status with the given wire name, if any. */
  function ParseStatus(name: string): (r: Option<OrderStatus>)
    ensures r.Some? ==> StatusName(r.value) == name
    ensures r.None? ==> forall s: OrderStatus :: StatusName(s) != name
  {
    if name == "pendiente" then Some(Pendiente)
    else if name == "en_proceso" then Some(EnProceso)
    else if name == "completado" then Some(Completado)
    else if name == "cancelado" then Some(Cancelado)
    else None
  }
}

=== FILE: route_gates.dfy ===
/** The two components that read the session before showing anything:
    `ProtectedRoute` (src/components/auth/ProtectedRoute.tsx) around the
    dashboard and `Home` (src/app/page.tsx) at the root. Each render is a
    decision over the store's state: whether the effect calls
    `initializeAuth`, where the effect navigates, and what is shown. */
module RouteGates {
  import opened Js
  import opened AuthStore

  const LoginPath := "/auth/login"
  const DashboardPath := "/dashboard"

  /** What `ProtectedRoute` renders. */
  datatype Screen = Initializing | Verifying | Children

  datatype GateDecision = GateDecision(callsInitialize: bool, redirect: Option<string>, screen: Screen)

  /** `ProtectedRoute`. */
  function Protected(s: AuthState): (d: GateDecision)
    ensures d.callsInitialize <==> !s.isInitialized
    ensures !s.isInitialized ==> d.redirect.None? && d.screen == Initializing
    ensures d.redirect.Some? <==> s.isInitialized && (!s.isAuthenticated || s.user.None?)
    ensures d.redirect.Some? ==> d.redirect.value == LoginPath
    ensures d.screen == Children <==> s.isInitialized && s.isAuthenticated && s.user.Some?
    ensures d.screen == Children ==> d.redirect.None?
  {
    var redirect := if s.isInitialized && (!s.isAuthenticated || s.user.None?) then Some(LoginPath) else None;
    var screen :=
      if !s.isInitialized then Initializing
      else if !s.isAuthenticated || s.user.None? then Verifying
      else Children;
    GateDecision(!s.isInitialized, redirect, screen)
  }

  datatype HomeDecision = HomeDecision(callsInitialize: bool, navigate: Option<string>, text: string)

  /** `Home`: it checks only `isAuthenticated`, never the user. */
  function Home(s: AuthState): (d: HomeDecision)
    ensures d.callsInitialize <==> !s.isInitialized
    ensures d.navigate.None? <==> !s.isInitialized
    ensures s.isInitialized ==> d.navigate == Some(if s.isAuthenticated then DashboardPath else LoginPath)
    ensures d.text == "Cargando..." <==> s.isInitialized
    ensures d.text == "Inicializando..." <==> !s.isInitialized
  {
    var navigate :=
      if !s.isInitialized then None
      else if s.isAuthenticated then Some(DashboardPath)
      else Some(LoginPath);
    HomeDecision(!s.isInitialized, navigate, if s.isInitialized then "Cargando..." else "Inicializando...")
  }

  /** Once `initializeAuth` has run, neither gate asks for it again, and each
      then navigates; so the effect that calls it runs once per page load. */
  lemma GatesSettleAfterInitialize(json: Json, s: Store)
    ensures !Protected(InitializeAuth(json, s).state).callsInitialize
    ensures !Home(InitializeAuth(json, s).state).callsInitialize
    ensures Home(InitializeAuth(json, s).state).navigate.Some?
  {
  }

  /** The gates disagree on a session without a user: `Home` sends it to the
      dashboard and `ProtectedRoute` sends it back to the login page. Such a
      session is reachable (see `AuthStore.NullUserSession`). */
  lemma GatesDisagreeOnNullUser(json: Json, s: Store)
    requires HasStoredSession(s.storage)
    requires json.readUser(s.storage[UserKey]) == Some(None)
    ensures Home(InitializeAuth(json, s).state).navigate == Some(DashboardPath)
    ensures Protected(InitializeAuth(json, s).state).redirect == Some(LoginPath)
  {
    NullUserSession(json, s);
  }
}

=== FILE: send_message.dfy ===
/** `SendMessageModal` (src/components/messages/SendMessageModal.tsx): the form
    state, the template preview, the submit guards and payload, and the
    selector rules. The form library, toasts and clipboard are outside the
    model; zod's verdict on the form is `SchemaAccepts`. */
module SendMessage {
  import opened Js
  import opened Text
  import opened Records
  import Lists

  const ClientNameSlot := "{clientName}"
  const OrderDescriptionSlot := "{orderDescription}"

  /** The template keys of `sendMessageSchema` and of `MessageTemplates`. */
  const TemplateKeys := ["confirmacion", "recordatorio", "seguimiento", "entrega", "agradecimiento"]

  /** The watched form values; `templateType` starts undefined. */
  datatype Form = Form(clientId: string, orderId: string, channel: string, templateType: Option<string>)

  /** `sendMessageSchema`. */
  predicate SchemaAccepts(f: Form) {
    |f.clientId| >= 1 && |f.orderId| >= 1 && f.channel == "whatsapp"
    && f.templateType.Some? && f.templateType.value in TemplateKeys
  }

  /** `defaultValues`, computed from the props when the form is created. */
  function Defaults(clientId: Option<string>, orderId: Option<string>): (f: Form)
    ensures f.clientId == OrOpt(clientId, "") && f.orderId == OrOpt(orderId, "")
    ensures f.channel == "whatsapp" && f.templateType.None?
    ensures !SchemaAccepts(f)
  {
    Form(OrOpt(clientId, ""), OrOpt(orderId, ""), "whatsapp", None)
  }

  /** The component's state: the form, the defaults it resets to, and the
      two `useState` hooks. */
  datatype State = State(form: Form, defaults: Form, previewText: string, showPreview: bool)

  /** The state when the modal is first rendered: the form holds the
      defaults it will later reset to, and there is no preview. */
  function Mount(clientId: Option<string>, orderId: Option<string>): (s: State)
    ensures s.form == s.defaults == Defaults(clientId, orderId)
    ensures s.previewText == "" && !s.showPreview
  {
    var d := Defaults(clientId, orderId);
    State(d, d, "", false)
  }

  /** The preview: the first "{clientName}" replaced by the client's name, then
      the first "{orderDescription}" in that result by the order's description. */
  function Preview(template: string, name: string, description: string): string {
    ReplaceFirst(ReplaceFirst(template, ClientNameSlot, name), OrderDescriptionSlot, description)
  }

  /** A template without slots is shown as it is. */
  lemma PreviewWithoutSlots(template: string, name: string, description: string)
    requires '{' !in template
    ensures Preview(template, name, description) == template
  {
    NoHeadNoOccurrence(template, ClientNameSlot);
    NoHeadNoOccurrence(template, OrderDescriptionSlot);
  }

  /** With one slot of each kind, in that order, and no other '{' before the
      second slot, the preview fills both. */
  lemma PreviewFillsBothSlots(a: string, b: string, c: string, name: string, description: string)
    requires '{' !in a && '{' !in b && '{' !in name
    ensures Preview(a + ClientNameSlot + b + OrderDescriptionSlot + c, name, description)
         == a + name + b + description + c
  {
    var y := b + OrderDescriptionSlot + c;
    var x := a + name + b;
    assert ClientNameSlot[0] == OrderDescriptionSlot[0] == '{';
    assert '{' !in x;
    ReplaceFirstAfter(a, ClientNameSlot, y, name);
    assert a + ClientNameSlot + b + OrderDescriptionSlot + c == a + ClientNameSlot + y;
    var filled := ReplaceFirst(a + ClientNameSlot + y, ClientNameSlot, name);
    assert filled == x + OrderDescriptionSlot + c;
    ReplaceFirstAfter(x, OrderDescriptionSlot, c, description);
  }

  /** Only the first "{clientName}" is filled: a second one stays in the preview. */
  lemma PreviewKeepsRepeatedSlot(a: string, b: string, name: string, description: string)
    requires '{' !in a && '{' !in b && '{' !in name
    ensures Preview(a + ClientNameSlot + b + ClientNameSlot, name, description)
         == a + name + b + ClientNameSlot
  {
    var y := b + ClientNameSlot;
    ReplaceFirstAfter(a, ClientNameSlot, y, name);
    assert a + ClientNameSlot + b + ClientNameSlot == a + ClientNameSlot + y;
    var x := a + name + b;
    assert a + name + y == x + ClientNameSlot;
    NoOccurrenceShortTail(x, ClientNameSlot, OrderDescriptionSlot);
  }

  /** `clients?.find(c => c.id === id)`: the first client with the id. */
  function SelectedClient(clients: Option<seq<Client>>, id: string): (r: Option<Client>)
    ensures r.Some? ==> clients.Some? && r.value in clients.value && r.value.id == id
    ensures r.Some? ==>
      exists j :: 0 <= j < |clients.value| && clients.value[j] == r.value
        && forall k :: 0 <= k < j ==> clients.value[k].id != id
    ensures r.None? <==> clients.None? || forall j :: 0 <= j < |clients.value| ==> clients.value[j].id != id
  {
    if clients.None? then None
    else
      var found := Lists.Find(clients.value, (c: Client) => c.id == id);
      if found.Some? then
        var j := Lists.FirstIndex(clients.value, (c: Client) => c.id == id);
        assert clients.value[j] == found.value;
        found
      else found
  }

  /** `orders?.find(o => o.id === id)`: the first order with the id. */
  function SelectedOrder(orders: Option<seq<Order>>, id: string): (r: Option<Order>)
    ensures r.Some? ==> orders.Some? && r.value in orders.value && r.value.id == id
    ensures r.Some? ==>
      exists j :: 0 <= j < |orders.value| && orders.value[j] == r.value
        && forall k :: 0 <= k < j ==> orders.value[k].id != id
    ensures r.None? <==> orders.None? || forall j :: 0 <= j < |orders.value| ==> orders.value[j].id != id
  {
    if orders.None? then None
    else
      var found := Lists.Find(orders.value, (o: Order) => o.id == id);
      if found.Some? then
        var j := Lists.FirstIndex(orders.value, (o: Order) => o.id == id);
        assert orders.value[j] == found.value;
        found
      else found
  }

  /** `templates[key]`, undefined for a missing key. */
  function TemplateText(templates: map<string, string>, key: string): Option<string> {
    if key in templates then Some(templates[key]) else None
  }

  /** The preview effect: recompute only when client, order, template key and
      templates are all present and the template text is non-empty;
      otherwise keep the previous preview. */
  function RefreshPreview(previous: string, client: Option<Client>, order: Option<Order>,
                          templateType: Option<string>, templates: Option<map<string, string>>): (r: string)
    ensures !(client.Some? && order.Some? && Truthy(templateType) && templates.Some?) ==> r == previous
    ensures client.Some? && order.Some? && Truthy(templateType) && templates.Some? ==>
      var text := TemplateText(templates.value, templateType.value);
      r == (if Truthy(text) then Preview(text.value, client.value.name, order.value.description) else previous)
  {
    if client.Some? && order.Some? && Truthy(templateType) && templates.Some? then
      var text := TemplateText(templates.value, templateType.value);
      if Truthy(text) then Preview(text.value, client.value.name, order.value.description) else previous
    else previous
  }

  /** The body handed to `sendMessage`. */
  datatype Payload = Payload(
    clientId: string, orderId: string, channel: string, templateType: string,
    clientName: string, orderDescription: string)

  datatype SubmitOutcome =
    | Invalid         // zod rejects; handleSubmit is not called
    | MissingRecords  // toast: client or order not found
    | NoPhone         // toast: the client has no phone
    | Send(payload: Payload)

  /** `form.handleSubmit(handleSubmit)`. */
  function Submit(f: Form, clients: Option<seq<Client>>, orders: Option<seq<Order>>): (r: SubmitOutcome)
    ensures r.Invalid? <==> !SchemaAccepts(f)
    ensures r.MissingRecords? <==>
      SchemaAccepts(f) && (SelectedClient(clients, f.clientId).None? || SelectedOrder(orders, f.orderId).None?)
    ensures r.NoPhone? <==>
      && SchemaAccepts(f) && SelectedOrder(orders, f.orderId).Some?
      && SelectedClient(clients, f.clientId).Some? && SelectedClient(clients, f.clientId).value.phone == ""
    ensures r.Send? ==>
      && SchemaAccepts(f)
      && SelectedClient(clients, f.clientId).Some? && SelectedOrder(orders, f.orderId).Some?
      && SelectedClient(clients, f.clientId).value.phone != ""
      && r.payload.clientName == SelectedClient(clients, f.clientId).value.name
      && r.payload.orderDescription == SelectedOrder(orders, f.orderId).value.description
      && r.payload.clientId == f.clientId && r.payload.orderId == f.orderId
      && r.payload.channel == f.channel && r.payload.templateType == f.templateType.value
  {
    if !SchemaAccepts(f) then Invalid
    else
      var client := SelectedClient(clients, f.clientId);
      var order := SelectedOrder(orders, f.orderId);
      if client.None? || order.None? then MissingRecords
      else if f.channel == "whatsapp" && client.value.phone == "" then NoPhone
      else Send(Payload(f.clientId, f.orderId, f.channel, f.templateType.value,
                        client.value.name, order.value.description))
  }

  /** Choosing a client clears the order. */
  function SelectClient(s: State, id: string): (r: State)
    ensures r.form.clientId == id && r.form.orderId == ""
    ensures r.form.channel == s.form.channel && r.form.templateType == s.form.templateType
    ensures r.(form := s.form) == s
  {
    s.(form := s.form.(clientId := id, orderId := ""))
  }

  function SelectOrder(s: State, id: string): (r: State)
    ensures r.form == s.form.(orderId := id)
    ensures r.(form := s.form) == s
  {
    s.(form := s.form.(orderId := id))
  }

  /** The orders the order selector offers. */
  function OrderOptions(orders: Option<seq<Order>>, clientId: string): (r: seq<Order>)
    ensures forall i :: 0 <= i < |r| ==> r[i].clientId == clientId
    ensures orders.Some? ==> forall i :: 0 <= i < |r| ==> r[i] in orders.value
    ensures orders.Some? ==> forall i :: 0 <= i < |orders.value| && orders.value[i].clientId == clientId ==> orders.value[i] in r
    ensures orders.None? ==> r == []
  {
    if orders.None? then [] else Lists.Filter(orders.value, (o: Order) => o.clientId == clientId)
  }

  /** No two records share an id. */
  predicate UniqueOrderIds(orders: seq<Order>) {
    forall i, j :: 0 <= i < |orders| && 0 <= j < |orders| && orders[i].id == orders[j].id ==> i == j
  }

  /** Through the selectors, the order sent always belongs to the client sent:
      picking a client and then one of the offered orders pairs them. */
  lemma SelectorsPairOrderWithClient(s: State, orders: seq<Order>, clientId: string, o: Order)
    requires UniqueOrderIds(orders)
    requires o in OrderOptions(Some(orders), clientId)
    ensures
      var f := SelectOrder(SelectClient(s, clientId), o.id).form;
      SelectedOrder(Some(orders), f.orderId) == Some(o) && o.clientId == f.clientId
  {
    assert o in orders;
    var j :| 0 <= j < |orders| && orders[j] == o;
    assert Lists.FirstIndex(orders, (x: Order) => x.id == o.id) == j;
  }

  /** `disabled={isSending || !selectedClientId || !selectedOrderId || !selectedTemplate}`,
      negated. The button is usable only with a client, an order and a
      template chosen, and never while sending; every form zod accepts can
      be submitted when nothing is being sent. */
  function SubmitEnabled(isSending: bool, f: Form): (r: bool)
    ensures isSending ==> !r
    ensures r ==> f.clientId != "" && f.orderId != "" && Truthy(f.templateType)
    ensures !isSending && f.clientId != "" && f.orderId != "" && Truthy(f.templateType) ==> r
    ensures SchemaAccepts(f) ==> (r <==> !isSending)
  {
    !isSending && f.clientId != "" && f.orderId != "" && Truthy(f.templateType)
  }

  /** Choosing a template in its selector changes only the template. */
  function SelectTemplate(s: State, key: string): (r: State)
    ensures r.form == s.form.(templateType := Some(key))
    ensures r.(form := s.form) == s
  {
    s.(form := s.form.(templateType := Some(key)))
  }

  /** `handleClose`, and the `onSuccess` of a send: back to the defaults the
      form was created with, no preview. Both also call `onClose`. */
  function Reset(s: State): (r: State)
    ensures r.form == s.defaults && r.defaults == s.defaults
    ensures r.previewText == "" && !r.showPreview
  {
    State(s.defaults, s.defaults, "", false)
  }

  /** Resetting a freshly mounted modal changes nothing. */
  lemma ResetOfMountIsMount(clientId: Option<string>, orderId: Option<string>)
    ensures Reset(Mount(clientId, orderId)) == Mount(clientId, orderId)
  {
  }

  /** `handlePreview`: shows the preview only when there is one. */
  function HandlePreview(s: State): (r: State)
    ensures r.showPreview <==> s.showPreview || s.previewText != ""
    ensures r.(showPreview := s.showPreview) == s
  {
    if s.previewText == "" then s else s.(showPreview := true)
  }
}

=== FILE: send_modal_host.dfy ===
/** The send-message modal as both tables host it (ClientsTable.tsx and
    OrdersTable.tsx): the row last chosen, whether the dialog is open, and
    the modal's own state. The modal is rendered on every render of the
    table while its list is non-empty, so its form is created when the
    modal mounts, from the props of that render; later props never reach
    the form. Every close resets the chosen row to none, so the modal only
    ever mounts with no row chosen, unless the list empties while the
    dialog is open. An empty list returns before the modal and unmounts
    it; that step is not an `Action`. */
module SendModalHost {
  import opened Js
  import SendMessage

  datatype Host<T> = Host(chosen: Option<T>, open: bool, modal: SendMessage.State)

  /** The modal's mount: no row chosen, dialog closed, and the form
      created from that render's props. */
  function Mount<T>(clientId: Option<string>, orderId: Option<string>): (h: Host<T>)
    ensures h.chosen.None? && !h.open
    ensures h.modal.form == h.modal.defaults == SendMessage.Defaults(clientId, orderId)
    ensures h.modal.previewText == "" && !h.modal.showPreview
  {
    Host(None, false, SendMessage.Mount(clientId, orderId))
  }

  /** `handleSendMessage(row)`: remembers the row and opens the dialog; the
      modal's state, form included, is left as it was. */
  function Open<T>(h: Host<T>, row: T): (r: Host<T>)
    ensures r.chosen == Some(row) && r.open
    ensures r.modal == h.modal
  {
    h.(chosen := Some(row), open := true)
  }

  /** The modal's `handleClose` followed by the table's `onClose`: the form
      goes back to the defaults it was created with, the row is forgotten. */
  function Dismiss<T>(h: Host<T>): (r: Host<T>)
    ensures r.chosen.None? && !r.open
    ensures r.modal.form == h.modal.defaults && r.modal.defaults == h.modal.defaults
    ensures r.modal.previewText == "" && !r.modal.showPreview
  {
    Host(None, false, SendMessage.Reset(h.modal))
  }

  /** What the user does to the host between sends. */
  datatype Action<T> = Click(row: T) | Close

  function Run<T>(h: Host<T>, acts: seq<Action<T>>): Host<T>
    decreases |acts|
  {
    if |acts| == 0 then h
    else Run(match acts[0] case Click(row) => Open(h, row) case Close => Dismiss(h), acts[1..])
  }

  /** Whatever rows are clicked and however often the dialog is closed, the
      form still holds the defaults it was mounted with. */
  lemma {:induction false} RunKeepsFirstDefaults<T>(h: Host<T>, acts: seq<Action<T>>)
    requires h.modal.form == h.modal.defaults
    ensures Run(h, acts).modal.form == h.modal.defaults
    ensures Run(h, acts).modal.defaults == h.modal.defaults
    decreases |acts|
  {
    if |acts| > 0 {
      var next := match acts[0] case Click(row) => Open(h, row) case Close => Dismiss(h);
      RunKeepsFirstDefaults(next, acts[1..]);
    }
  }
}

=== FILE: socket_service.dfy ===
/** The singleton of src/lib/socketService.ts: the guard around the socket it
    owns, and the translation of socket.io events into window `CustomEvent`s.
    The socket itself is only a token and a connected flag. */
module SocketService {
  import opened Js

  /** A socket.io client created with `auth: { token }`. */
  datatype Connection = Connection(token: string, connected: bool)

  datatype Service = Service(socket: Option<Connection>, authToken: Option<string>)

  /** `new SocketService()`. */
  const Fresh := Service(None, None)

  /** `isConnected()`: `this.socket?.connected || false`. */
  function IsConnected(s: Service): (r: bool)
    ensures s.socket.None? ==> !r
    ensures r ==> s.socket.value.connected
    ensures s == Fresh ==> !r
  {
    s.socket.Some? && s.socket.value.connected
  }

  /** `connect(authToken)`: does nothing on a connected socket; otherwise
      opens a new, not yet connected, socket with the given token. */
  function Connect(s: Service, token: string): (r: Service)
    ensures IsConnected(s) ==> r == s
    ensures !IsConnected(s) ==> r.authToken == Some(token) && r.socket == Some(Connection(token, false))
    ensures !IsConnected(s) ==> !IsConnected(r)
  {
    if IsConnected(s) then s
    else Service(Some(Connection(token, false)), Some(token))
  }

  /** `disconnect()`: drops the socket; the last token is kept. */
  function Disconnect(s: Service): (r: Service)
    ensures r.socket.None? && !IsConnected(r)
    ensures r.authToken == s.authToken
  {
    s.(socket := None)
  }

  /** The events the backend sends over the socket, with the fields the
      listeners read. `data` payloads are forwarded without being read. */
  datatype SocketEvent =
    | Connected
    | Disconnected
    | QrGenerated(qrCode: string)
    | StatusChange(data: JsObject)
    | MessageReceived(data: JsObject)
    | MessageSent(data: JsObject)
    | WhatsAppFailure(errorMessage: string)

  /** `window.dispatchEvent(new CustomEvent(name, { detail }))`. */
  datatype WindowEvent = WindowEvent(name: string, detail: JsObject)

  const QrEvent := "whatsapp:qr"
  const StatusEvent := "whatsapp:status"
  const ErrorEvent := "whatsapp:error"
  const MessageEvent := "whatsapp:message"
  const MessageSentEvent := "whatsapp:message:sent"
  const Subscribe := "subscribe_whatsapp"

  /** What one listener does: a message emitted back over the socket and a
      window event dispatched. */
  datatype Reaction = Reaction(emit: Option<string>, dispatch: Option<WindowEvent>)

  /** The listeners of `setupEventListeners`, plus the effect of the event on
      the socket's connected flag. A service without a socket has no
      listeners. */
  function Receive(s: Service, e: SocketEvent): (r: (Service, Reaction))
    ensures s.socket.None? ==> r == (s, Reaction(None, None))
    ensures s.socket.Some? && e.Connected? ==> IsConnected(r.0) && r.1 == Reaction(Some(Subscribe), None)
    ensures s.socket.Some? && e.Disconnected? ==> !IsConnected(r.0) && r.1 == Reaction(None, None)
    ensures !e.Connected? && !e.Disconnected? ==> r.0 == s
    ensures s.socket.Some? && e.QrGenerated? ==> r.1 == Reaction(None, Some(WindowEvent(QrEvent, map["qr" := e.qrCode])))
    ensures s.socket.Some? && e.StatusChange? ==> r.1 == Reaction(None, Some(WindowEvent(StatusEvent, e.data)))
    ensures s.socket.Some? && e.WhatsAppFailure? ==>
      && r.1 == Reaction(None, Some(WindowEvent(ErrorEvent, map["error" := e.errorMessage])))
      && "message" !in r.1.dispatch.value.detail
    ensures r.1.emit.Some? <==> s.socket.Some? && e.Connected?
    ensures r.0.authToken == s.authToken
  {
    match s.socket
    case None => (s, Reaction(None, None))
    case Some(c) =>
      match e
      case Connected => (s.(socket := Some(c.(connected := true))), Reaction(Some(Subscribe), None))
      case Disconnected => (s.(socket := Some(c.(connected := false))), Reaction(None, None))
      case QrGenerated(code) => (s, Reaction(None, Some(WindowEvent(QrEvent, map["qr" := code]))))
      case StatusChange(data) => (s, Reaction(None, Some(WindowEvent(StatusEvent, data))))
      case MessageReceived(data) => (s, Reaction(None, Some(WindowEvent(MessageEvent, data))))
      case MessageSent(data) => (s, Reaction(None, Some(WindowEvent(MessageSentEvent, data))))
      case WhatsAppFailure(msg) => (s, Reaction(None, Some(WindowEvent(ErrorEvent, map["error" := msg]))))
  }

  /** Once the socket reports `connect`, a second `connect(token)` call is
      ignored, whatever the token: the socket keeps the one it was opened with. */
  lemma ConnectIdempotentOnceUp(s: Service, t1: string, t2: string)
    ensures
      var up := Receive(Connect(s, t1), Connected).0;
      Connect(up, t2) == up && up.authToken == Connect(s, t1).authToken
  {
  }

  /** `disconnect` followed by `connect` always opens a fresh socket with the
      new token. */
  lemma ReconnectAfterDisconnect(s: Service, t: string)
    ensures Connect(Disconnect(s), t) == Service(Some(Connection(t, false)), Some(t))
  {
  }
}

=== FILE: status_card.dfy ===
/** `WhatsAppStatusCard` (src/components/whatsapp/WhatsAppStatusCard.tsx): the
    flags and choices it derives from the status, info and availability
    queries and the two mutations. */
module StatusCard {
  import opened Js
  import opened Text

  /** `data` of the status query. */
  datatype StatusData = StatusData(status: string, message: Option<string>)

  /** `availability.whatsappWeb`, which may be missing. */
  datatype WebAvailability = WebAvailability(enabled: bool)

  datatype Availability = Availability(whatsappWeb: Option<WebAvailability>)

  /** Everything the card reads. An error is present as its `message`. */
  datatype Inputs = Inputs(
    status: Option<StatusData>,
    statusLoading: bool,
    statusError: Option<string>,
    availability: Option<Availability>,
    availabilityError: Option<string>,
    connectPending: bool,
    disconnectPending: bool,
    hasInfo: bool)

  datatype Icon = Spinner | WifiIcon | ConnectingSpinner | AlertIcon | WifiOffIcon
  datatype Badge = LoadingBadge | Conectado | Conectando | ErrorBadge | Desconectado

  /** `status?.status`. */
  function StatusName(i: Inputs): Option<string> {
    if i.status.Some? then Some(i.status.value.status) else None
  }

  /** `getStatusBadge`. */
  function StatusBadge(i: Inputs): (b: Badge)
    ensures i.statusLoading ==> b == LoadingBadge
    ensures !i.statusLoading ==>
      b == (if StatusName(i) == Some("connected") then Conectado
            else if StatusName(i) == Some("connecting") then Conectando
            else if StatusName(i) == Some("error") then ErrorBadge
            else Desconectado)
  {
    if i.statusLoading then LoadingBadge
    else match StatusName(i)
      case Some("connected") => Conectado
      case Some("connecting") => Conectando
      case Some("error") => ErrorBadge
      case _ => Desconectado
  }

  /** `getStatusIcon`. */
  function StatusIcon(i: Inputs): (c: Icon)
    ensures i.statusLoading ==> c == Spinner
    ensures !i.statusLoading && StatusName(i) !in {Some("connected"), Some("connecting"), Some("error")} ==> c == WifiOffIcon
  {
    if i.statusLoading then Spinner
    else match StatusName(i)
      case Some("connected") => WifiIcon
      case Some("connecting") => ConnectingSpinner
      case Some("error") => AlertIcon
      case _ => WifiOffIcon
  }

  /** The icon that goes with each badge. */
  function BadgeIcon(b: Badge): Icon {
    match b
    case LoadingBadge => Spinner
    case Conectado => WifiIcon
    case Conectando => ConnectingSpinner
    case ErrorBadge => AlertIcon
    case Desconectado => WifiOffIcon
  }

  /** The two switches agree: the icon is always the badge's icon. */
  lemma IconMatchesBadge(i: Inputs)
    ensures StatusIcon(i) == BadgeIcon(StatusBadge(i))
  {
  }

  /** `isConnected`: read from the data alone, whether or not it is loading. */
  function IsConnected(i: Inputs): (r: bool)
    ensures r <==> i.status.Some? && i.status.value.status == "connected"
    ensures i.status.None? ==> !r
    ensures r <==> StatusBadge(i.(statusLoading := false)) == Conectado
    ensures !i.statusLoading ==> (r <==> StatusBadge(i) == Conectado)
    ensures r ==> StatusIcon(i) == WifiIcon || i.statusLoading
  {
    StatusName(i) == Some("connected")
  }

  /** `msg?.includes('503')` is truthy. */
  predicate Mentions503(msg: Option<string>) {
    msg.Some? && Includes(msg.value, "503")
  }

  /** `isServiceUnavailable`. */
  function ServiceUnavailable(i: Inputs): (r: bool)
    ensures r <==>
      || (i.statusError.Some? && exists k :: OccursAt(i.statusError.value, "503", k))
      || (i.availabilityError.Some? && exists k :: OccursAt(i.availabilityError.value, "503", k))
  {
    Mentions503(i.statusError) || Mentions503(i.availabilityError)
  }

  /** `availability?.whatsappWeb?.enabled`. */
  predicate WebEnabled(i: Inputs) {
    i.availability.Some? && i.availability.value.whatsappWeb.Some? && i.availability.value.whatsappWeb.value.enabled
  }

  /** `isWhatsAppEnabled`. */
  function WhatsAppEnabled(i: Inputs): (r: bool)
    ensures r <==> WebEnabled(i) && !ServiceUnavailable(i)
  {
    WebEnabled(i) && !ServiceUnavailable(i)
  }

  /** The button row: connect when not connected, disconnect otherwise. */
  datatype ButtonView = ConnectButton(disabled: bool, caption: string) | DisconnectButton(disabled: bool, caption: string)

  function Button(i: Inputs): (b: ButtonView)
    ensures b.ConnectButton? <==> !IsConnected(i)
    ensures b.ConnectButton? ==> (b.disabled <==> i.connectPending || i.statusLoading || !WhatsAppEnabled(i))
    ensures b.ConnectButton? ==> b.caption == (if i.connectPending then "Conectando..." else "Conectar WhatsApp")
    ensures b.DisconnectButton? ==> (b.disabled <==> i.disconnectPending)
    ensures b.DisconnectButton? ==> b.caption == (if i.disconnectPending then "Desconectando..." else "Desconectar")
  {
    if !IsConnected(i) then
      ConnectButton(i.connectPending || i.statusLoading || !WhatsAppEnabled(i),
        if i.connectPending then "Conectando..." else "Conectar WhatsApp")
    else
      DisconnectButton(i.disconnectPending, if i.disconnectPending then "Desconectando..." else "Desconectar")
  }

  datatype Description = UnavailableText | NotEnabledText | ConnectedText | ConnectPromptText

  /** The card description. Its second test reads
      `availability?.whatsappWeb.enabled` without `?.` after `whatsappWeb`,
      so a loaded availability without `whatsappWeb` makes the render throw
      (`None`) unless the service is already unavailable. */
  function CardDescription(i: Inputs): (d: Option<Description>)
    ensures ServiceUnavailable(i) ==> d == Some(UnavailableText)
    ensures !ServiceUnavailable(i) && i.availability.Some? && i.availability.value.whatsappWeb.None? ==> d.None?
    ensures d.Some? && !ServiceUnavailable(i) ==>
      d.value == (if !WebEnabled(i) then NotEnabledText else if IsConnected(i) then ConnectedText else ConnectPromptText)
  {
    if ServiceUnavailable(i) then Some(UnavailableText)
    else if i.availability.Some? && i.availability.value.whatsappWeb.None? then None
    else if !WebEnabled(i) then Some(NotEnabledText)
    else if IsConnected(i) then Some(ConnectedText)
    else Some(ConnectPromptText)
  }

  /** A usable connect button always comes with the prompt to connect, and
      never while the service is unavailable. */
  lemma EnabledButtonMeansPrompt(i: Inputs)
    requires Button(i).ConnectButton? && !Button(i).disabled
    ensures CardDescription(i) == Some(ConnectPromptText)
    ensures !ServiceUnavailable(i)
  {
  }

  /** The number/name block shows only when connected and info has loaded. */
  function ShowsInfo(i: Inputs): (r: bool)
    ensures r <==> IsConnected(i) && i.hasInfo
    ensures r ==> Button(i).DisconnectButton?
    ensures r && !i.statusLoading ==> StatusBadge(i) == Conectado
  {
    IsConnected(i) && i.hasInfo
  }

  /** The status message shows only when it is non-empty. */
  function ShowsStatusMessage(i: Inputs): (r: bool)
    ensures r ==> StatusName(i).Some?
    ensures r ==> i.status.value.message.Some? && i.status.value.message.value != ""
    ensures i.status.Some? && i.status.value.message.Some? && i.status.value.message.value != "" ==> r
  {
    i.status.Some? && Truthy(i.status.value.message)
  }

  /** The outcome of `connectMutation.mutate`. */
  datatype ConnectOutcome = ConnectSucceeded | ConnectFailed

  /** `handleConnect`'s callbacks: success opens the modal and refetches the
      info; failure changes nothing. Returns the new `showConnectModal` and
      whether the info is refetched. */
  function OnConnectOutcome(showModal: bool, o: ConnectOutcome): (r: (bool, bool))
    ensures r.0 <==> showModal || o.ConnectSucceeded?
    ensures r.1 <==> o.ConnectSucceeded?
    ensures o.ConnectFailed? ==> r.0 == showModal
  {
    if o.ConnectSucceeded? then (true, true) else (showModal, false)
  }
}

=== FILE: text.dfy ===
/** The JavaScript string operations the front end relies on, over `seq<char>`.
    Characters are assumed ASCII: `toLowerCase` maps only 'A'..'Z'. */
module Text {

  /** `s.startsWith(p)`. */
  predicate StartsWith(s: string, p: string) {
    |p| <= |s| && s[..|p|] == p
  }

  /** `pat` occurs in `s` starting at index `i`. */
  predicate OccursAt(s: string, pat: string, i: int) {
    0 <= i && i + |pat| <= |s| && s[i..i + |pat|] == pat
  }

  /** `s.indexOf(pat, k)` for `0 <= k`: the first occurrence at or after `k`, or -1. */
  function IndexFrom(s: string, pat: string, k: nat): (i: int)
    ensures i == -1 || (k <= i && OccursAt(s, pat, i))
    ensures i == -1 ==> forall j :: k <= j ==> !OccursAt(s, pat, j)
    ensures i >= 0 ==> forall j :: k <= j < i ==> !OccursAt(s, pat, j)
    decreases |s| - k
  {
    if k + |pat| > |s| then -1
    else if s[k..k + |pat|] == pat then k
    else IndexFrom(s, pat, k + 1)
  }

  /** `s.indexOf(pat)`. */
  function IndexOf(s: string, pat: string): (i: int)
    ensures i == -1 || OccursAt(s, pat, i)
    ensures i == -1 <==> forall j :: !OccursAt(s, pat, j)
    ensures i >= 0 ==> forall j :: j < i ==> !OccursAt(s, pat, j)
  {
    IndexFrom(s, pat, 0)
  }

  /** `s.includes(pat)`. */
  predicate Includes(s: string, pat: string) {
    IndexOf(s, pat) >= 0
  }

  lemma IncludesAt(s: string, pat: string, i: int)
    requires OccursAt(s, pat, i)
    ensures Includes(s, pat)
  {
  }

  /** `s.replace(pat, rep)` with a string pattern: only the first occurrence is
      replaced, and `rep` is taken literally (it contains no `$` pattern). */
  function ReplaceFirst(s: string, pat: string, rep: string): (r: string)
    ensures !Includes(s, pat) ==> r == s
    ensures Includes(s, pat) ==> |r| == |s| - |pat| + |rep|
    ensures Includes(s, pat) ==> r[..IndexOf(s, pat)] == s[..IndexOf(s, pat)]
    ensures Includes(s, pat) ==> r[IndexOf(s, pat)..IndexOf(s, pat) + |rep|] == rep
    ensures Includes(s, pat) ==> r[IndexOf(s, pat) + |rep|..] == s[IndexOf(s, pat) + |pat|..]
  {
    var i := IndexOf(s, pat);
    if i < 0 then s else s[..i] + rep + s[i + |pat|..]
  }

  /** A character of `s` is a one-character substring of `s`. */
  lemma CharIncluded(s: string, c: char)
    requires c in s
    ensures Includes(s, [c])
  {
    var i :| 0 <= i < |s| && s[i] == c;
    assert s[i..i + 1] == [c];
    assert OccursAt(s, [c], i);
  }

  /** Replacing the first occurrence of a character removes exactly that
      character: the one at the first index where it occurs. */
  lemma ReplaceFirstChar(s: string, c: char)
    requires c in s
    ensures exists k :: 0 <= k < |s| && s[k] == c && c !in s[..k] && ReplaceFirst(s, [c], "") == s[..k] + s[k + 1..]
  {
    CharIncluded(s, c);
    var k := IndexOf(s, [c]);
    assert s[k..k + 1] == [c];
    forall j | 0 <= j < k ensures s[j] != c {
      if s[j] == c {
        assert s[j..j + 1] == [c];
        assert OccursAt(s, [c], j);
      }
    }
    assert s == s[..k] + [c] + s[k + 1..];
    ReplaceFirstAfter(s[..k], [c], s[k + 1..], "");
  }

  /** A pattern whose first character does not occur in `s` does not occur in `s`. */
  lemma NoHeadNoOccurrence(s: string, pat: string)
    requires |pat| > 0 && pat[0] !in s
    ensures !Includes(s, pat)
  {
    forall j | 0 <= j < |s| ensures !OccursAt(s, pat, j) {
      if j + |pat| <= |s| {
        assert s[j..j + |pat|][0] == s[j];
      }
    }
  }

  /** A pattern that could only start in a tail shorter than itself does not occur. */
  lemma NoOccurrenceShortTail(x: string, y: string, pat: string)
    requires |pat| > 0 && pat[0] !in x && |y| < |pat|
    ensures !Includes(x + y, pat)
  {
    var s := x + y;
    forall j | 0 <= j < |x| ensures !OccursAt(s, pat, j) {
      if j + |pat| <= |s| {
        assert s[j..j + |pat|][0] == s[j] == x[j];
      }
    }
  }

  /** When the first character of `pat` does not occur before it, the
      occurrence right after `x` is the one `replace` rewrites. */
  lemma ReplaceFirstAfter(x: string, pat: string, y: string, rep: string)
    requires |pat| > 0 && pat[0] !in x
    ensures ReplaceFirst(x + pat + y, pat, rep) == x + rep + y
  {
    var s := x + pat + y;
    assert OccursAt(s, pat, |x|) by {
      assert s[|x|..|x| + |pat|] == pat;
    }
    forall j | 0 <= j < |x| ensures s[j] == x[j] != pat[0] {
    }
    assert IndexOf(s, pat) == |x|;
    assert s[..|x|] == x;
    assert s[|x| + |pat|..] == y;
  }

  /** `s.replace(/c/g, '')`: every occurrence of `c` removed. */
  function RemoveAll(s: string, c: char): (r: string)
    ensures c !in r
    ensures forall x :: x != c ==> multiset(r)[x] == multiset(s)[x]
    ensures |r| <= |s|
  {
    if |s| == 0 then ""
    else
      assert s == [s[0]] + s[1..];
      (if s[0] == c then "" else [s[0]]) + RemoveAll(s[1..], c)
  }

  /** `toLowerCase` on one ASCII character. */
  function LowerChar(c: char): char {
    if 'A' <= c <= 'Z' then (c as int + 32) as char else c
  }

  /** `s.toLowerCase()` for ASCII text. */
  function Lower(s: string): (r: string)
    ensures |r| == |s|
    ensures forall i :: 0 <= i < |s| ==> r[i] == LowerChar(s[i])
  {
    seq(|s|, i requires 0 <= i < |s| => LowerChar(s[i]))
  }

  /** `s.slice(-n)` for `n > 0`: the last `n` characters, or all of `s` when it is shorter. */
  function Last(s: string, n: nat): (r: string)
    ensures |r| == if |s| <= n then |s| else n
    ensures r == s[|s| - |r|..]
  {
    if |s| <= n then s else s[|s| - n..]
  }

  /** The `\d` character class. */
  predicate IsDigit(c: char) {
    '0' <= c <= '9'
  }

  /** The regular expression `^\d+$`. */
  predicate AllDigits(s: string) {
    |s| > 0 && forall i :: 0 <= i < |s| ==> IsDigit(s[i])
  }

  function DigitChar(d: nat): (c: char)
    requires d < 10
    ensures IsDigit(c)
  {
    ('0' as int + d) as char
  }

  function DigitValue(c: char): (d: nat)
    requires IsDigit(c)
    ensures d < 10
  {
    c as int - '0' as int
  }

  /** `n.toString()` for a natural number. */
  function NatToString(n: nat): (r: string)
    ensures AllDigits(r)
    decreases n
  {
    if n < 10 then [DigitChar(n)] else NatToString(n / 10) + [DigitChar(n % 10)]
  }

  /** `n.toString()` for an integer. */
  function IntToString(n: int): (r: string)
    ensures |r| > 0
  {
    if n < 0 then "-" + NatToString(-n) else NatToString(n)
  }

  /** The value of a decimal digit string. */
  function ParseNat(s: string): nat
    requires forall i :: 0 <= i < |s| ==> IsDigit(s[i])
    decreases |s|
  {
    if |s| == 0 then 0 else 10 * ParseNat(s[..|s| - 1]) + DigitValue(s[|s| - 1])
  }

  /** Rendering a natural number in decimal loses nothing. */
  lemma {:induction false} ParseNatToString(n: nat)
    ensures ParseNat(NatToString(n)) == n
    decreases n
  {
    if n >= 10 {
      var r := NatToString(n);
      assert r[..|r| - 1] == NatToString(n / 10);
      ParseNatToString(n / 10);
    }
  }
}

=== FILE: validations.dfy ===
/** The form schemas of src/lib/validations/index.ts.

    Each schema is modelled as the list of issues zod reports, in the order it
    reports them: the fields of an object in declaration order, and within a
    string field every failing check (zod keeps checking a string after a
    failed `min` or `regex`, and a `refine` still runs on such a dirty value).
    A form is accepted iff the list is empty. zod's e-mail pattern is outside
    the model and enters as the parameter `isEmail`. */
module Validations {
  import opened Js
  import opened Text
  import Records

  /** Which check failed. */
  datatype Rule =
    | TooShort(min: nat)     // `.min(n, ...)`
    | NotDigits              // `.regex(/^\d+$/, ...)`
    | NoCountryCode          // the `.refine` on the phone
    | BadEmail               // `.email(...)`
    | NotInEnum              // `z.enum([...])`

  datatype Issue = Issue(field: string, rule: Rule)

  /** The text the schema attaches to a failed check; `None` where zod
      generates its own text (the enum checks). */
  function RuleText(field: string, rule: Rule): Option<string> {
    match rule
    case TooShort(n) =>
      if field == "password" then Some("La contraseña debe tener al menos 6 caracteres")
      else if field == "name" then Some("El nombre debe tener al menos 2 caracteres")
      else if field == "phone" then Some("El teléfono debe tener al menos 10 caracteres")
      else if field == "clientId" then Some("Debe seleccionar un cliente")
      else Some("La descripción debe tener al menos 5 caracteres")
    case NotDigits => Some("El teléfono debe contener solo dígitos")
    case NoCountryCode => Some("El teléfono debe incluir código de país (ej: 549112345678)")
    case BadEmail => Some("Email inválido")
    case NotInEnum => None
  }

  const PasswordMin: nat := 6
  const NameMin: nat := 2
  const PhoneMin: nat := 10
  const DescriptionMin: nat := 5

  /** `z.string().min(n)` on one field. */
  function MinIssues(field: string, s: string, n: nat): seq<Issue> {
    if |s| < n then [Issue(field, TooShort(n))] else []
  }

  /** `z.string().email()` on one field. */
  function EmailIssues(field: string, s: string, isEmail: string -> bool): seq<Issue> {
    if isEmail(s) then [] else [Issue(field, BadEmail)]
  }

  datatype LoginForm = LoginForm(email: string, password: string)

  /** `loginSchema`. */
  function LoginIssues(f: LoginForm, isEmail: string -> bool): (r: seq<Issue>)
    ensures r == [] <==> isEmail(f.email) && |f.password| >= 6
  {
    EmailIssues("email", f.email, isEmail) + MinIssues("password", f.password, PasswordMin)
  }

  datatype RegisterForm = RegisterForm(name: string, email: string, password: string)

  /** `registerSchema`. */
  function RegisterIssues(f: RegisterForm, isEmail: string -> bool): (r: seq<Issue>)
    ensures r == [] <==> |f.name| >= 2 && isEmail(f.email) && |f.password| >= 6
  {
    MinIssues("name", f.name, NameMin)
    + EmailIssues("email", f.email, isEmail)
    + MinIssues("password", f.password, PasswordMin)
  }

  /** The phone field of `clientSchema`, exactly as written: length, digits-only
      regex, then the country-code refinement with its `'+54'` alternative. */
  function PhoneIssues(p: string): (r: seq<Issue>)
    ensures r == [] <==> |p| >= 10 && AllDigits(p) && StartsWith(p, "54")
  {
    MinIssues("phone", p, PhoneMin)
    + (if AllDigits(p) then [] else [Issue("phone", NotDigits)])
    + (if StartsWith(p, "54") || StartsWith(p, "+54") then [] else [Issue("phone", NoCountryCode)])
  }

  /** A phone starting with '+' always fails the digits-only check, so the
      `'+54'` alternative of the refinement can never make a phone valid. */
  lemma PlusPrefixRejected(p: string)
    requires |p| > 0 && p[0] == '+'
    ensures Issue("phone", NotDigits) in PhoneIssues(p)
    ensures PhoneIssues(p) != []
  {
    assert !IsDigit(p[0]);
  }

  /** Removing the `'+54'` alternative changes no verdict: it is dead code. */
  lemma PlusBranchDead(p: string)
    ensures (PhoneIssues(p) == []) == (|p| >= PhoneMin && AllDigits(p) && StartsWith(p, "54"))
    ensures AllDigits(p) ==> !StartsWith(p, "+54")
  {
    if AllDigits(p) {
      assert IsDigit(p[0]);
    }
  }

  /** The e-mail field of `clientSchema`: `.email().optional().or(z.literal(''))`. */
  function ClientEmailIssues(e: Option<string>, isEmail: string -> bool): (r: seq<Issue>)
    ensures r == [] <==> e.None? || e.value == "" || isEmail(e.value)
  {
    match e
    case None => []
    case Some(s) => if s == "" then [] else EmailIssues("email", s, isEmail)
  }

  datatype ClientForm = ClientForm(name: string, phone: string, email: Option<string>)

  /** `clientSchema`. */
  function ClientIssues(c: ClientForm, isEmail: string -> bool): (r: seq<Issue>)
    ensures r == [] <==>
      && |c.name| >= 2
      && |c.phone| >= 10 && AllDigits(c.phone) && StartsWith(c.phone, "54")
      && (c.email.None? || c.email.value == "" || isEmail(c.email.value))
  {
    MinIssues("name", c.name, NameMin) + PhoneIssues(c.phone) + ClientEmailIssues(c.email, isEmail)
  }

  datatype ClientUpdateForm = ClientUpdateForm(name: Option<string>, phone: Option<string>, email: Option<string>)

  /** `clientSchema.partial()`: an absent field is not checked. */
  function ClientUpdateIssues(c: ClientUpdateForm, isEmail: string -> bool): (r: seq<Issue>)
    ensures r == [] <==>
      && (c.name.Some? ==> |c.name.value| >= 2)
      && (c.phone.Some? ==> |c.phone.value| >= 10 && AllDigits(c.phone.value) && StartsWith(c.phone.value, "54"))
      && (c.email.None? || c.email.value == "" || isEmail(c.email.value))
  {
    (if c.name.Some? then MinIssues("name", c.name.value, NameMin) else [])
    + (if c.phone.Some? then PhoneIssues(c.phone.value) else [])
    + ClientEmailIssues(c.email, isEmail)
  }

  /** The update form carrying every field of a create form. */
  function AsUpdate(c: ClientForm): ClientUpdateForm {
    ClientUpdateForm(Some(c.name), Some(c.phone), c.email)
  }

  /** The update schema is the partial of the create schema: with every field
      present it reports exactly the create schema's issues, and with every
      field absent it accepts. */
  lemma ClientUpdateIsPartial(c: ClientForm, isEmail: string -> bool)
    ensures ClientUpdateIssues(AsUpdate(c), isEmail) == ClientIssues(c, isEmail)
    ensures ClientUpdateIssues(ClientUpdateForm(None, None, None), isEmail) == []
  {
  }

  datatype OrderForm = OrderForm(clientId: string, description: string)

  /** `orderSchema`. */
  function OrderIssues(o: OrderForm): (r: seq<Issue>)
    ensures r == [] <==> o.clientId != "" && |o.description| >= 5
  {
    MinIssues("clientId", o.clientId, 1) + MinIssues("description", o.description, DescriptionMin)
  }

  datatype OrderUpdateForm = OrderUpdateForm(description: Option<string>, status: Option<string>)

  /** `orderUpdateSchema`. */
  function OrderUpdateIssues(o: OrderUpdateForm): (r: seq<Issue>)
    ensures r == [] <==>
      && (o.description.Some? ==> |o.description.value| >= 5)
      && (o.status.Some? ==> exists s: Records.OrderStatus :: Records.StatusName(s) == o.status.value)
  {
    (if o.description.Some? then MinIssues("description", o.description.value, DescriptionMin) else [])
    + (if o.status.Some? && Records.ParseStatus(o.status.value).None? then [Issue("status", NotInEnum)] else [])
  }

  datatype TemplateVariables = TemplateVariables(clientName: Option<string>, orderDate: Option<string>, orderStatus: Option<string>)

  datatype MessageTemplateForm = MessageTemplateForm(templateType: string, variables: TemplateVariables)

  /** The template types `messageTemplateSchema` admits. */
  const TemplateTypes: set<string> := {"confirmacion", "recordatorio", "seguimiento"}

  /** `messageTemplateSchema`: every variable is optional and unconstrained. */
  function MessageTemplateIssues(m: MessageTemplateForm): (r: seq<Issue>)
    ensures r == [] <==> m.templateType in TemplateTypes
  {
    if m.templateType == "confirmacion" || m.templateType == "recordatorio" || m.templateType == "seguimiento"
    then []
    else [Issue("templateType", NotInEnum)]
  }
}

=== FILE: whatsapp_api.dfy ===
/** The fetch-based WhatsApp client of src/lib/api/whatsapp.ts: how it finds a
    token, the headers it sends, the query string of `getMessages`, and the
    debug JWT decoder. The requests themselves are outside the model. */
module WhatsAppApi {
  import opened Js
  import opened Text
  import AuthStore
  import ApiClient

  type Headers = map<string, string>

  const ContentType := "application/json"

  /** What `getAuthHeaders` returns or throws. */
  datatype AuthHeaders =
    | Headers(headers: Headers)
    | NoToken               // throws Error('No hay token de autenticación disponible')
    | MalformedAuthStorage  // JSON.parse of 'auth-storage' throws

  /** `authStore?.state?.token`, where `authStore` is
      `JSON.parse(localStorage.getItem('auth-storage') || '{}')`;
      `None` when the parse throws. */
  function PersistedToken(json: AuthStore.Json, storage: Storage): Option<Option<string>> {
    var text := GetItem(storage, AuthStore.PersistKey);
    if !Truthy(text) then Some(None)
    else match json.readPersisted(text.value)
      case Some(p) => Some(p.token)
      case None => None
  }

  /** The headers an authenticated call sends with the given token. */
  function BearerHeaders(token: string): Headers {
    map["Authorization" := "Bearer " + token, "Content-Type" := ContentType]
  }

  /** `getAuthHeaders`: the token from 'auth-storage' when truthy, else the
      'token' key; throws when neither is truthy. */
  function GetAuthHeaders(json: AuthStore.Json, storage: Storage): (r: AuthHeaders)
    ensures r.MalformedAuthStorage? <==> PersistedToken(json, storage).None?
    ensures PersistedToken(json, storage).Some? && Truthy(PersistedToken(json, storage).value) ==>
      r == Headers(BearerHeaders(PersistedToken(json, storage).value.value))
    ensures PersistedToken(json, storage).Some? && !Truthy(PersistedToken(json, storage).value) ==>
      if Truthy(GetItem(storage, AuthStore.TokenKey))
      then r == Headers(BearerHeaders(storage[AuthStore.TokenKey]))
      else r == NoToken
    ensures r.Headers? ==> r.headers.Keys == {"Authorization", "Content-Type"} && r.headers["Content-Type"] == ContentType
  {
    match PersistedToken(json, storage)
    case None => MalformedAuthStorage
    case Some(stored) =>
      var finalToken := OrBoth(stored, GetItem(storage, AuthStore.TokenKey));
      if Truthy(finalToken) then Headers(BearerHeaders(finalToken.value)) else NoToken
  }

  /** `getPublicHeaders`. */
  function PublicHeaders(): (h: Headers)
    ensures "Authorization" !in h
    ensures h.Keys == {"Content-Type"} && h["Content-Type"] == ContentType
  {
    map["Content-Type" := ContentType]
  }

  /** A 401 from the axios client clears 'token' but not 'auth-storage', so
      this client keeps sending the rejected token afterwards. */
  lemma AuthHeadersSurvive401(json: AuthStore.Json, s: AuthStore.Store, t: string, e: ApiClient.HttpError)
    requires AuthStore.Mirrors(json, s)
    requires s.state.token == Some(t) && t != ""
    requires json.readPersisted(json.showPersisted(AuthStore.Partialize(s.state))) == Some(AuthStore.Partialize(s.state))
    requires json.showPersisted(AuthStore.Partialize(s.state)) != ""
    requires e.status == Some(401)
    ensures GetAuthHeaders(json, ApiClient.OnResponseError(s.storage, e).storage) == Headers(BearerHeaders(t))
  {
    var after := ApiClient.OnResponseError(s.storage, e).storage;
    assert AuthStore.PersistKey in after && after[AuthStore.PersistKey] == s.storage[AuthStore.PersistKey];
  }

  /** The endpoints of `whatsappApi`. */
  datatype Endpoint =
    | GetStatus | Connect | ConnectAuth | Disconnect | Restore
    | GetInfo | GetInfoAuth | GetMessages | SendMessage | GetAvailability

  /** The endpoints that call `getAuthHeaders`; the others send public headers. */
  predicate UsesAuth(e: Endpoint) {
    e.ConnectAuth? || e.Disconnect? || e.Restore? || e.GetInfoAuth? || e.GetMessages? || e.SendMessage?
  }

  /** The headers a call to `e` sends, or why it throws before sending. */
  function RequestHeaders(json: AuthStore.Json, storage: Storage, e: Endpoint): (r: AuthHeaders)
    ensures UsesAuth(e) ==> r == GetAuthHeaders(json, storage)
    ensures !UsesAuth(e) ==> r == Headers(PublicHeaders())
    ensures !UsesAuth(e) ==> r.Headers? && "Authorization" !in r.headers
    ensures UsesAuth(e) && r.Headers? ==> "Authorization" in r.headers
    ensures r.Headers? ==> "Content-Type" in r.headers && r.headers["Content-Type"] == ContentType
  {
    if UsesAuth(e) then GetAuthHeaders(json, storage) else Headers(PublicHeaders())
  }

  /** Every authenticated endpoint keeps sending the rejected token after a
      401, while the public endpoints never depend on storage at all. */
  lemma RequestsSurvive401(json: AuthStore.Json, s: AuthStore.Store, t: string, err: ApiClient.HttpError, e: Endpoint)
    requires AuthStore.Mirrors(json, s)
    requires s.state.token == Some(t) && t != ""
    requires json.readPersisted(json.showPersisted(AuthStore.Partialize(s.state))) == Some(AuthStore.Partialize(s.state))
    requires json.showPersisted(AuthStore.Partialize(s.state)) != ""
    requires err.status == Some(401)
    ensures UsesAuth(e) ==>
      RequestHeaders(json, ApiClient.OnResponseError(s.storage, err).storage, e) == Headers(BearerHeaders(t))
    ensures !UsesAuth(e) ==>
      RequestHeaders(json, ApiClient.OnResponseError(s.storage, err).storage, e) == RequestHeaders(json, s.storage, e)
  {
    AuthHeadersSurvive401(json, s, t, err);
  }

  datatype Direction = Incoming | Outgoing

  function DirectionName(d: Direction): string {
    match d
    case Incoming => "incoming"
    case Outgoing => "outgoing"
  }

  /** The optional filters of `getMessages`. */
  datatype MessageQuery = MessageQuery(limit: Option<int>, offset: Option<int>, direction: Option<Direction>)

  /** The position of each parameter in the query string. */
  function Rank(key: string): nat {
    if key == "limit" then 0 else if key == "offset" then 1 else 2
  }

  /** A number filter is sent only when it is truthy, i.e. present and not 0. */
  predicate Sent(n: Option<int>) {
    n.Some? && n.value != 0
  }

  /** The `URLSearchParams` `getMessages` builds, as (key, value) pairs. */
  function QueryParams(f: Option<MessageQuery>): (r: seq<(string, string)>)
    ensures forall i :: 0 <= i < |r| ==> r[i].0 == "limit" || r[i].0 == "offset" || r[i].0 == "direction"
    ensures forall i, j :: 0 <= i < j < |r| ==> Rank(r[i].0) < Rank(r[j].0)
    ensures forall i :: 0 <= i < |r| && r[i].0 == "direction" ==>
      f.Some? && f.value.direction.Some? && r[i].1 == DirectionName(f.value.direction.value)
    ensures forall i :: 0 <= i < |r| && r[i].0 == "limit" ==>
      f.Some? && f.value.limit.Some? && r[i].1 == IntToString(f.value.limit.value)
    ensures forall i :: 0 <= i < |r| && r[i].0 == "offset" ==>
      f.Some? && f.value.offset.Some? && r[i].1 == IntToString(f.value.offset.value)
  {
    if f.None? then []
    else
      var q := f.value;
      (if Sent(q.limit) then [("limit", IntToString(q.limit.value))] else [])
      + (if Sent(q.offset) then [("offset", IntToString(q.offset.value))] else [])
      + (if q.direction.Some? then [("direction", DirectionName(q.direction.value))] else [])
  }

  /** `key` is one of the parameters. */
  predicate HasParam(r: seq<(string, string)>, key: string) {
    exists i :: 0 <= i < |r| && r[i].0 == key
  }

  /** Each parameter is sent exactly when its filter is truthy: a zero limit
      or offset is dropped. */
  lemma QueryParamsPresence(f: Option<MessageQuery>)
    ensures HasParam(QueryParams(f), "limit") <==> f.Some? && Sent(f.value.limit)
    ensures HasParam(QueryParams(f), "offset") <==> f.Some? && Sent(f.value.offset)
    ensures HasParam(QueryParams(f), "direction") <==> f.Some? && f.value.direction.Some?
  {
    var r := QueryParams(f);
    if f.Some? {
      var q := f.value;
      var a := if Sent(q.limit) then 1 else 0;
      var b := if Sent(q.offset) then 1 else 0;
      assert |r| == a + b + (if q.direction.Some? then 1 else 0);
      forall i | 0 <= i < |r|
        ensures r[i].0 == (if i < a then "limit" else if i < a + b then "offset" else "direction")
      {
      }
      if Sent(q.limit) { assert r[0].0 == "limit"; }
      if Sent(q.offset) { assert r[a].0 == "offset"; }
      if q.direction.Some? { assert r[a + b].0 == "direction"; }
    }
  }

  /** A positive limit travels intact: the server reads back the same number. */
  lemma LimitRoundTrip(q: MessageQuery)
    requires q.limit.Some? && q.limit.value > 0
    ensures QueryParams(Some(q))[0] == ("limit", NatToString(q.limit.value))
    ensures ParseNat(QueryParams(Some(q))[0].1) == q.limit.value
  {
    ParseNatToString(q.limit.value);
  }

  /** The text of `s` before the first `c`; all of `s` when there is none. */
  function Before(s: string, c: char): (r: string)
    ensures c !in r
    ensures StartsWith(s, r)
    ensures |r| < |s| ==> s[|r|] == c
    ensures |r| == |s| <==> c !in s
  {
    if |s| == 0 then ""
    else if s[0] == c then ""
    else
      var rest := Before(s[1..], c);
      assert s == [s[0]] + s[1..];
      [s[0]] + rest
  }

  /** The text before the first `c` of `x + [c] + y`, when `x` has no `c`, is `x`. */
  lemma BeforeFirst(x: string, c: char, y: string)
    requires c !in x
    ensures Before(x + [c] + y, c) == x
  {
    var s := x + [c] + y;
    var r := Before(s, c);
    assert s[|x|] == c;
    assert forall i :: 0 <= i < |x| ==> s[i] == x[i];
    assert r == s[..|r|] == x;
  }

  /** `token.split('.')[1]`: the text between the first and second '.', or
      `undefined` when there is no '.'. */
  function SecondSegment(token: string): (r: Option<string>)
    ensures r.None? <==> '.' !in token
    ensures r.Some? ==>
      var head := Before(token, '.');
      && '.' !in r.value
      && StartsWith(token[|head| + 1..], r.value)
      && (|head| + 1 + |r.value| == |token| || token[|head| + 1 + |r.value|] == '.')
  {
    var head := Before(token, '.');
    if |head| == |token| then None
    else Some(Before(token[|head| + 1..], '.'))
  }

  /** base64url to base64: '-' becomes '+' and '_' becomes '/'. */
  function UrlToStandard(s: string): (r: string)
    ensures |r| == |s|
    ensures forall i :: 0 <= i < |s| ==> r[i] == (if s[i] == '-' then '+' else if s[i] == '_' then '/' else s[i])
    ensures '-' !in r && '_' !in r
  {
    seq(|s|, i requires 0 <= i < |s| => if s[i] == '-' then '+' else if s[i] == '_' then '/' else s[i])
  }

  /** `decodeJWT`: the payload segment through `atob` and percent-decoding
      (`decodePayload`, outside the model) and `JSON.parse` (`parse`). Any
      failure, including a token without '.', yields `null` instead of
      throwing. */
  function DecodeJwt<C>(token: string, decodePayload: string -> Option<string>, parse: string -> Option<C>): (r: Option<C>)
    ensures '.' !in token ==> r.None?
    ensures r.Some? ==>
      && SecondSegment(token).Some?
      && decodePayload(UrlToStandard(SecondSegment(token).value)).Some?
      && parse(decodePayload(UrlToStandard(SecondSegment(token).value)).value) == r
    ensures SecondSegment(token).Some? && decodePayload(UrlToStandard(SecondSegment(token).value)).Some? ==>
      r == parse(decodePayload(UrlToStandard(SecondSegment(token).value)).value)
  {
    match SecondSegment(token)
    case None => None
    case Some(seg) =>
      match decodePayload(UrlToStandard(seg))
      case None => None
      case Some(text) => parse(text)
  }

  /** A token built from a header, a payload and a signature, the first two
      without '.', decodes to the parse of its decoded payload. */
  lemma DecodeBuiltToken<C>(header: string, payload: string, signature: string,
                            decodePayload: string -> Option<string>, parse: string -> Option<C>)
    requires '.' !in header && '.' !in payload
    ensures SecondSegment(header + "." + payload + "." + signature) == Some(payload)
    ensures DecodeJwt(header + "." + payload + "." + signature, decodePayload, parse) ==
      (match decodePayload(UrlToStandard(payload))
       case None => None
       case Some(text) => parse(text))
  {
    var token := header + "." + payload + "." + signature;
    assert token == header + ['.'] + (payload + "." + signature);
    BeforeFirst(header, '.', payload + "." + signature);
    assert token[|header| + 1..] == payload + ['.'] + signature;
    BeforeFirst(payload, '.', signature);
  }
}
